=== FILE: README.md ===
# RedSpectre core, modelled in Dafny

RedSpectre audits Solidity contracts with a swarm of LLM personas. This
project models the deterministic core that sits around those model calls:

- **Finding deduplication and ranking** (`agent/services/dedup.py`,
  module `Dedup`). Findings are grouped by (stripped, lower-cased title,
  file path). Each group keeps its most severe, earliest finding, a support
  count, the severities seen and the union of the paths.
  `deduplicate_findings` emits one finding per group.
  `select_top_findings` adds a consensus note, scores each group, sorts the
  groups by score (stable, highest first) and keeps the first `limit`.
  `_aggregate`, `deduplicate_findings` and `select_top_findings` are
  methods with loops. Each is proved equal to a specification function
  (`Aggregate`, `EmitAll`, `Ranked`), and lemmas state what those functions
  mean.
- **Validation of the LLM's exploit hypothesis**
  (`agent/agent_code/parsers.py`, module `Parsers`). This covers the
  required fields with their types, the error messages in the order the
  code checks them, and the `clean_llm_json` fallback.
- **The pure part of the dynamic executor**
  (`agent/agent_code/dynamic_executor.py`, module `DynamicExecutor`). This
  covers sanitising the vulnerability id, normalising the hypothesis with
  its defaults, the non-exploitable guard, the success test on the `forge`
  output, the 500-character trace and the test name. Writing the test file
  and running `forge` are recorded as actions, and the process result is
  an input.
- **The swarm's verdict collection** (`agent/services/swarm.py`, class
  `Swarm.Swarm`). It also covers the fallback verdict of
  `BasePersona.hunt` (`agent/services/personas/base.py`) when a model
  call fails. Each persona's backend is an input function, and its decoded
  reply may be any JSON value. A verdict that is not a dict makes
  `analysis.get` raise `AttributeError`, which `analyze_file` does not
  catch, so the model returns an error.

Support modules:

- `Wrappers` defines `Option` and `Result`.
- `Json` holds JSON values, Python truthiness and `dict.get`.
- `Text` provides `strip` (over the whitespace among the first 256 code
  points), ASCII `lower`, substring tests, `join`, `int()` on strings (with
  the narrower whitespace `int()` itself skips) and
  Python string order with an insertion sort.
- `Seqs` holds subsequences and duplicate-free lists built by set-like
  insertion.
- `StableSort` is a stable sort by integer tuples in non-increasing order.
  It models `sort(key=..., reverse=True)`.

## Model

| member | source | states |
|---|---|---|
| Dedup.SeverityRank | agent/services/dedup.py:15 | The ranks order the severities Critical (4) > High (3) > Medium (2) > Low (1), each rank belonging to exactly that name. Every other severity, "Informational" included, ranks 0. |
| Dedup.ScoreValue | agent/services/dedup.py:82-100 | An absent score reads as 50, an integer as itself, and a string as `int(s)` when that parses, else 50. `int(s)` skips only tab to carriage return, space, U+0085 and U+00A0 around the digits. |
| Text.IntDoesNotSkipSeparators | agent/services/dedup.py:87-90 | `int()` skips less than `strip` removes: text led by U+001C is rejected, so the score falls back to 50, although `strip` would leave only digits. |
| Dedup.ScoreOfDecimalText | agent/services/dedup.py:87-90 | A score given as its decimal text `str(n)`, negative values included, ranks exactly like the integer. |
| Dedup.SameKeyUpToCaseAndPadding | agent/services/dedup.py:20 | Titles differing only in letter case and surrounding whitespace give the same grouping key. |
| Dedup.PathContributions | agent/services/dedup.py:19-20 | The inner loop visits one (finding, path) pair per listed path, in list order. |
| Dedup.Grow | agent/services/dedup.py:31-37 | A repeat key adds 1 to support. The severity joins the severities and the paths join the paths, as unions that stay free of repeats. The representative is replaced only by a strictly more severe finding, so its rank never drops and is at least the new finding's. |
| Dedup.Step | agent/services/dedup.py:20-37 | One (finding, path) pair adds its key to the table and leaves every other entry alone. A new key is appended to the order with support 1 and the finding as representative. A known key keeps the order and its entry grows. |
| Dedup.AddContribution | agent/services/dedup.py:20-37 | One pass of the inner loop turns the table for the contributions seen into the table for those plus this (finding, path). |
| Dedup.AddPaths | agent/services/dedup.py:19-37 | The inner loop over one finding's paths leaves the table equal to the specification fold over everything seen so far. |
| Dedup.AggregateFindings | agent/services/dedup.py:12-38 | `_aggregate`'s nested loops build exactly `Aggregate(findings)`. |
| Dedup.AggregateSpec | agent/services/dedup.py:12-38 | Keys are distinct and in order of first appearance. A key has an entry iff some finding lists that path under that title. Each entry's support is the size of its group. Its representative is the earliest finding of highest rank. Its severities and paths are exactly those of the group, without repeats. Supports add up to the total number of listed paths. |
| Dedup.EmptyPathsContributeNothing | agent/services/dedup.py:19 | A finding without paths leaves the aggregate unchanged, wherever it appears. |
| Dedup.AggregateCovered | agent/services/dedup.py:12-38 | Every key in the order has an entry. |
| Dedup.DeduplicateFindings | agent/services/dedup.py:41-54 | The loop returns one emitted finding per key, in key order. |
| Dedup.EmitEntries | agent/services/dedup.py:49-52 | The loop over the entries yields each representative with its group's paths sorted, in key order. |
| Dedup.DeduplicateSpec | agent/services/dedup.py:41-54 | There are no more outputs than listed paths. The i-th output is the earliest most severe finding of the i-th group, with its paths replaced by the strictly sorted union of the group's paths. |
| Dedup.SortedPaths | agent/services/dedup.py:51 | `sorted(set)` is strictly increasing, with the same elements and the same count. |
| Dedup.EmitAllAliased | agent/services/dedup.py:49-53 | This is the loop as written, with shared finding objects. Every occurrence of a representative shows the paths assigned to it last. |
| Dedup.SharedRepresentativeLosesPaths | agent/services/dedup.py:49-53 | Example: "T"/High on [a, b] and "T"/Low on [a, c] give three groups. The first group's union is [a, b, c]. The aliased loop emits [a, b] for it. |
| Dedup.SeverityOrderSpec | agent/services/dedup.py:71 | The listed severities run from most to least severe. They are a permutation of those seen, and equally ranked ones keep their order. |
| Dedup.ConsensusNote | agent/services/dedup.py:75-78 | The note always contains the marker "Consensus:". |
| Dedup.Annotate | agent/services/dedup.py:74-80 | The description is kept as a prefix. It is unchanged when support is at most 1 or the marker is already present. Otherwise it gains the note, so it contains the marker whenever support > 1. |
| Dedup.AnnotateIdempotent | agent/services/dedup.py:79-80 | Once a first annotation with support above 1 has run, a second one, with any support and severities, changes nothing. |
| Dedup.Score | agent/services/dedup.py:103-109 | The score has five components. The first two are support and severity rank. |
| Dedup.SliceEnd | agent/services/dedup.py:113 | `[:limit]` keeps `min(limit, n)` elements for `limit >= 0`, and `max(n + limit, 0)` for a negative limit. |
| Dedup.ScoreEntry | agent/services/dedup.py:69-110 | One pass of the scoring loop gives the representative with sorted paths and the consensus note, paired with its five-part score. |
| Dedup.ScoreEntries | agent/services/dedup.py:68-110 | The loop builds exactly `ScoredAll`: each representative with sorted paths and consensus note, with its score. |
| Dedup.SelectTopFindings | agent/services/dedup.py:57-113 | `limit` defaults to 20. The result has `SliceEnd(#groups, limit)` elements. They are the findings at the head of the stable descending ranking, in order. |
| Dedup.PrepareSpec | agent/services/dedup.py:69-109 | For an entry that matches its group, the scored element is the group's earliest most severe finding, with the strictly sorted union of the group's paths and the description annotated with the group's size and severities. Its score is the group's size, that finding's severity rank, confidence and negated false positive risk, and the number of distinct paths. |
| Dedup.ScoredSpec | agent/services/dedup.py:68-110 | The list scored before sorting has one element per key, in order of first appearance, each prepared and scored for its group as above. |
| Dedup.SelectedSpec | agent/services/dedup.py:57-113 | Every finding that `select_top_findings` returns is the prepared, scored representative of one of the groups: the group's earliest most severe finding, with the sorted union of its paths and the consensus note when its support is above 1. |
| Dedup.RankedSpec | agent/services/dedup.py:112 | The ranking is a permutation of the scored groups. Scores never increase along it, and equal scores keep key order. |
| Dedup.SelectionOutranksRest | agent/services/dedup.py:112-113 | Every selected finding's score is at least that of every group left out. |
| Parsers.MissingFields | agent/agent_code/parsers.py:37 | The result lists exactly the required names absent from the object, in declaration order. |
| Parsers.FirstTypeError | agent/agent_code/parsers.py:42-47 | The result is the first field, in declaration order, whose value (`None` when absent) has the wrong type. `None` means every field is well typed. |
| Parsers.ParseLlmJson | agent/agent_code/parsers.py:24-49 | The result is valid iff the decoded value is an object carrying every required field with its type. When valid, the object is returned unchanged with an empty error. Otherwise it returns `{}` and a non-empty error. |
| Parsers.MissingReportedFirst | agent/agent_code/parsers.py:37-39 | If any required key is missing, the error lists all missing keys, whatever the types of the keys present. |
| Parsers.TypeErrorNamesFirstOffender | agent/agent_code/parsers.py:41-47 | With all keys present, the error names the first ill-typed key and the expected type. |
| Parsers.CleanLlmJson | agent/agent_code/parsers.py:16-21 | The result is the object when the schema holds, else `{"is_exploitable": False}`. |
| DynamicExecutor.SanitizeVulnerabilityId | agent/agent_code/dynamic_executor.py:12-15 | The id is non-empty and uses only `[A-Za-z0-9_]`. It is "EXP001" when no input character is allowed, and otherwise the allowed characters themselves. |
| DynamicExecutor.KeepIdCharsFilters | agent/agent_code/dynamic_executor.py:14 | The kept characters are a subsequence of the input. Each allowed character is kept as often as it occurs. |
| DynamicExecutor.SanitizeIdempotent | agent/agent_code/dynamic_executor.py:12-15 | Sanitising a sanitised id returns it unchanged. |
| DynamicExecutor.SanitizeValue | agent/agent_code/dynamic_executor.py:14 | A falsy value gives "EXP001". A string is sanitised. Any other truthy value is an error, the `TypeError` `re.sub` raises. |
| DynamicExecutor.NormalizedId | agent/agent_code/dynamic_executor.py:24 | The stored id is an error iff `vulnerability_id` is present, truthy and not a string. Otherwise it is non-empty and made of allowed characters. It is "EXP001" when the key is absent or its value falsy, and the sanitised string otherwise. |
| DynamicExecutor.AsDict | agent/agent_code/dynamic_executor.py:21-28 | The normalised dictionary has exactly the six schema keys. |
| DynamicExecutor.NormalizeHypothesis | agent/agent_code/dynamic_executor.py:18-28 | The call fails iff `vulnerability_id` is present, truthy and not a string. Otherwise `is_exploitable` is the value's truthiness and the id is the one `NormalizedId` gives. The other keys are copied, or take their defaults when absent. |
| DynamicExecutor.NormalizeOfDict | agent/agent_code/dynamic_executor.py:18-28 | A normalised hypothesis, written as a dictionary, normalises to itself. |
| DynamicExecutor.NormalizeIdempotent | agent/agent_code/dynamic_executor.py:18-28 | Normalising twice equals normalising once. |
| DynamicExecutor.NormalizeKeepsSchema | agent/agent_code/dynamic_executor.py:18-28 | A hypothesis that passes `parse_llm_json` normalises without error into one that passes it again. |
| DynamicExecutor.LastChars | agent/agent_code/dynamic_executor.py:59 | `s[-500:]` is the suffix of length `min(len(s), 500)`. |
| DynamicExecutor.RunSucceeded | agent/agent_code/dynamic_executor.py:57-58 | Success holds iff the exit status is 0 and the lower-cased stdout contains "test passed". |
| DynamicExecutor.OneTestPassedIsTestPassed | agent/agent_code/dynamic_executor.py:58 | Output containing "1 test passed" also contains "test passed", so the first test adds nothing. |
| DynamicExecutor.HypothesisDict | agent/agent_code/dynamic_executor.py:31 | `hypothesis or {}` gives `{}` for a falsy value and the fields of an object. A truthy value that is not an object is an error, the `AttributeError` its `.get` raises. |
| DynamicExecutor.RunNormalized | agent/agent_code/dynamic_executor.py:32-64 | The trace summary is at most 500 characters. The test name and the recorded actions are present iff the hypothesis is exploitable. Success implies an exploitable hypothesis and a passing run. A non-exploitable hypothesis gets the fixed message. |
| DynamicExecutor.GenerateAndRunTest | agent/agent_code/dynamic_executor.py:30-65 | A report's trace summary is never longer than 500 characters. |
| DynamicExecutor.NonExploitableShortCircuits | agent/agent_code/dynamic_executor.py:31-33 | A non-exploitable hypothesis yields success False, the fixed message and no test name, with no file written and no process run. |
| DynamicExecutor.ExploitableRun | agent/agent_code/dynamic_executor.py:46-65 | An exploitable hypothesis produces these results. Success means exit 0 plus "test passed". The trace is the last at most 500 characters of stdout, newline, stderr. The test is named `testExploit_<id>`. It writes `test/Exploit_<id>.t.sol`, then runs forge matching that test. |
| Swarm.Hunt | agent/services/personas/base.py:21-33 | A reply is returned exactly as decoded, whatever JSON value it is. A failed call yields exactly `{"found_vulnerability": False}`, a dict that does not report a vulnerability. |
| Swarm.ToFinding | agent/services/swarm.py:25-35 | Each record field is the verdict's value, or the source's default when the key is absent. `attack_logic` and `verification_proof` have no default. The file, confidence text and agent name are fixed. |
| Swarm.ReportingAgents | agent/services/swarm.py:20-24 | The result is the increasing positions of exactly the agents whose verdict reports a vulnerability. |
| Swarm.Collect | agent/services/swarm.py:18-37 | The result is an error, the `AttributeError` of `analysis.get`, iff some agent's verdict is not a dict. Otherwise there are at most as many records as agents, and each names the file, the swarm confidence text and the name of one of the agents. |
| Swarm.CollectSelectsReporters | agent/services/swarm.py:18-37 | When no verdict raises, there is one record per reporting agent, in agent order, each built from that agent's dict verdict. |
| Swarm.AllFailedYieldsNothing | agent/services/swarm.py:18-37 | If every model call fails, no findings are returned and nothing raises. |
| Swarm.Swarm.constructor | agent/services/swarm.py:6-12 | The council is the Thief, then the Logician. |
| Swarm.Swarm.AnalyzeFile | agent/services/swarm.py:14-37 | The loop returns what `Collect` specifies. It raises iff some agent's verdict is not a dict. Otherwise it returns at most one record per agent, each naming the file, the swarm confidence and an agent of the council. |

## Left out

- `json.loads` is not modelled. Parsing starts from its outcome, a JSON value or a decode error carrying the exception text.
- Floats in JSON values are not modelled. Truthiness is modelled for null, booleans, integers, strings, lists and objects. `int()` is modelled only for an absent value or `None`, integers and strings.
- `str.strip` removes the whitespace among the first 256 code points (including U+0085 and U+00A0). `int()` skips a narrower set: tab to carriage return, space, U+0085 and U+00A0, but not U+001C to U+001F. `str.lower` maps ASCII letters only, and `int()` reads ASCII digits only. Whitespace, case mapping and digits beyond those are not modelled.
- `Dedup.SeverityOrderSpec`: Python iterates a `set` of severities in an unspecified order before the stable sort. The model keeps severities in first-seen order, so ties among equally ranked severities are ordered as first seen.
- `Dedup.EmitAllAliased` identifies finding objects by value. Two equal but distinct finding objects would not alias in Python, but they do here.
- `deduplicate_findings` and `select_top_findings` mutate the input finding objects in place. The model returns new values, and the callers' view of the mutated inputs is not modelled. `select_top_findings` has the same shared-representative aliasing as `deduplicate_findings`, and its output is modelled by value, as intended.
- `Dedup.ScoreValue` covers integers and strings. Floats, which `int()` truncates, and other objects are not modelled. The `isinstance(best, dict)` branch cannot apply to a finding record.
- The comment at agent/agent_code/parsers.py:41 speaks of truthy/falsy coercion for booleans, but lines 44-45 reject any non-boolean value. The model follows the code: `Parsers.FirstTypeError` reports such a value.
- `generate_and_run_test` does not model template rendering (Jinja) or the contract-name argument. Writing the file and running `forge` become the `WriteTestFile`/`RunForgeTest` actions, and the process result is an input.
- `DynamicExecutor.SanitizeVulnerabilityId` states "EXP001 when no character is allowed", one direction only. An input that is itself "EXP001" also yields "EXP001".
- LLM calls (`BasePersona.hunt`'s OpenAI request and JSON decoding) are input functions. The printed error message is not modelled. Persona prompts and the other personas are not part of this model.

## Findings

| source | as written | input that shows it | evidently intended | confidence | as-written member | corrected member |
|---|---|---|---|---|---|---|
| agent/services/dedup.py:49-53 | `best.file_paths = sorted(...)` assigns in place to a representative that can stand for several (title, path) keys. The last assignment overwrites earlier ones in the already appended list. | Findings "T"/High on [a, b] and "T"/Low on [a, c]: the group (t, a) has union [a, b, c], but its emitted finding shows [a, b]. | Each emitted finding carries the sorted union of its own group's paths. | not executed; medium | Dedup.SharedRepresentativeLosesPaths | Dedup.DeduplicateSpec |

=== FILE: dedup.dfy ===
/**
 * Deduplication and consensus ranking of findings (`agent/services/dedup.py`).
 *
 * Findings are grouped under (normalised title, file path), one contribution
 * per path a finding names. Each group keeps a representative (the earliest
 * finding of highest severity), a support count, the severities seen and the
 * union of the file paths. `DeduplicateFindings` emits one finding per group;
 * `SelectTopFindings` annotates consensus, ranks and truncates.
 *
 * The grouping table is specified by `Aggregate`, a fold of `Step` over the
 * contributions; `AggregateFindings` builds the same table with the source's
 * two nested loops.
 */
module Dedup {
  import opened Text
  import opened Seqs
  import opened StableSort

  // ---------------------------------------------------------------- findings

  /**
   * A value read by `getattr(best, "confidence_score", None)`: absent (or
   * `None`), an integer, or a string for `int(...)` to parse.
   */
  datatype NumField = Absent | IntField(n: int) | TextField(s: string)

  /** `VulnerabilityFinding`, with the two optional scores the ranking reads. */
  datatype Finding = Finding(
    title: string,
    description: string,
    severity: string,
    filePaths: seq<string>,
    confidenceScore: NumField,
    falsePositiveRisk: NumField)

  /** `severity_rank.get(severity, 0)` */
  function SeverityRank(severity: string): (r: nat)
    ensures r <= 4
    ensures severity == "Critical" <==> r == 4
    ensures severity == "High" <==> r == 3
    ensures severity == "Medium" <==> r == 2
    ensures severity == "Low" <==> r == 1
    ensures r == 0 <==> severity !in {"Critical", "High", "Medium", "Low"}
  {
    if severity == "Critical" then 4
    else if severity == "High" then 3
    else if severity == "Medium" then 2
    else if severity == "Low" then 1
    else 0
  }

  /** `int(x)` with 50 for an absent value and for one `int` rejects. */
  function ScoreValue(v: NumField): (r: int)
    ensures v.Absent? ==> r == 50
    ensures v.IntField? ==> r == v.n
    ensures v.TextField? ==> r == if ParseInt(v.s).Some? then ParseInt(v.s).value else 50
  {
    match v
    case Absent => 50
    case IntField(n) => n
    case TextField(s) =>
      match ParseInt(s)
      case Some(n) => n
      case None => 50
  }

  /**
   * A score stored as its decimal text reads back as the same number, so a
   * finding whose confidence arrives as a string ranks like the integer.
   */
  lemma ScoreOfDecimalText(n: int)
    ensures ScoreValue(TextField(IntToDecimal(n))) == ScoreValue(IntField(n)) == n
  {
    ParseIntOfIntDecimal(n);
  }

  // ---------------------------------------------------------------- grouping

  /** `(finding.title.strip().lower(), path)` */
  datatype Key = Key(title: string, path: string)

  function TitleKey(title: string): string {
    Lower(Strip(title))
  }

  /**
   * Titles that differ only in letter case and in surrounding whitespace give
   * the same key.
   */
  lemma SameKeyUpToCaseAndPadding(a: string, b: string, pre: string, post: string)
    requires AllSpace(pre) && AllSpace(post) && Lower(a) == Lower(b)
    ensures TitleKey(pre + a + post) == TitleKey(b)
  {
    StripPadding(pre, a, post);
    LowerStrip(a);
    LowerStrip(b);
  }

  /** One pass of the inner loop: a finding together with one of its paths. */
  datatype Contribution = Contribution(finding: Finding, path: string)

  function KeyOf(c: Contribution): Key {
    Key(TitleKey(c.finding.title), c.path)
  }

  function PathContributions(f: Finding): (cs: seq<Contribution>)
    ensures |cs| == |f.filePaths|
    ensures forall j :: 0 <= j < |cs| ==> cs[j] == Contribution(f, f.filePaths[j])
  {
    seq(|f.filePaths|, j requires 0 <= j < |f.filePaths| => Contribution(f, f.filePaths[j]))
  }

  /** The contributions in the order the two loops visit them. */
  function Contributions(fs: seq<Finding>): seq<Contribution> {
    if fs == [] then [] else Contributions(fs[..|fs| - 1]) + PathContributions(fs[|fs| - 1])
  }

  /** The number of path entries across all findings. */
  function TotalPaths(fs: seq<Finding>): nat {
    if fs == [] then 0 else TotalPaths(fs[..|fs| - 1]) + |fs[|fs| - 1].filePaths|
  }

  /** One value of `unique`: representative, support, severities, paths. */
  datatype Entry = Entry(best: Finding, support: nat, severities: seq<string>, filePaths: seq<string>)

  /** The dictionary `unique`: its keys in insertion order, and its entries. */
  datatype Table = Table(order: seq<Key>, entries: map<Key, Entry>)

  /**
   * A further finding filed under an existing key: one more supporter, the
   * more severe of the two representatives (the old one on a tie), its
   * severity and paths added to those already seen.
   */
  function Grow(e: Entry, f: Finding): (r: Entry)
    ensures r.support == e.support + 1
    ensures r.best == (if SeverityRank(f.severity) > SeverityRank(e.best.severity) then f else e.best)
    ensures SeverityRank(r.best.severity) >= SeverityRank(e.best.severity)
    ensures SeverityRank(r.best.severity) >= SeverityRank(f.severity)
    ensures Elems(r.severities) == Elems(e.severities) + {f.severity}
    ensures Elems(r.filePaths) == Elems(e.filePaths) + Elems(f.filePaths)
    ensures Distinct(e.severities) ==> Distinct(r.severities)
    ensures Distinct(e.filePaths) ==> Distinct(r.filePaths)
  {
    var best := if SeverityRank(f.severity) > SeverityRank(e.best.severity) then f else e.best;
    Entry(best, e.support + 1, AddNew(e.severities, f.severity), AddAll(e.filePaths, f.filePaths))
  }

  /**
   * One iteration of the inner loop of `_aggregate`: a new key is appended to
   * the order with a fresh entry of support 1; a known key keeps its place
   * and grows; every other entry is left alone.
   */
  function Step(t: Table, c: Contribution): (r: Table)
    ensures r.entries.Keys == t.entries.Keys + {KeyOf(c)}
    ensures forall k :: k in t.entries && k != KeyOf(c) ==> r.entries[k] == t.entries[k]
    ensures KeyOf(c) !in t.entries ==>
              r.order == t.order + [KeyOf(c)] && r.entries[KeyOf(c)].support == 1
              && r.entries[KeyOf(c)].best == c.finding
    ensures KeyOf(c) in t.entries ==>
              r.order == t.order && r.entries[KeyOf(c)] == Grow(t.entries[KeyOf(c)], c.finding)
  {
    var k := KeyOf(c);
    var f := c.finding;
    if k !in t.entries then
      Table(t.order + [k], t.entries[k := Entry(f, 1, [f.severity], AddAll([], f.filePaths))])
    else
      Table(t.order, t.entries[k := Grow(t.entries[k], f)])
  }

  function Fold(cs: seq<Contribution>): Table {
    if cs == [] then Table([], map[]) else Step(Fold(cs[..|cs| - 1]), cs[|cs| - 1])
  }

  /** `_aggregate(findings)` */
  function Aggregate(fs: seq<Finding>): Table {
    Fold(Contributions(fs))
  }

  // ---------------------------------------------------------------- reference definitions

  /** The findings that contributed to key `k`, in contribution order. */
  function Group(cs: seq<Contribution>, k: Key): seq<Finding> {
    if cs == [] then []
    else Group(cs[..|cs| - 1], k) + (if KeyOf(cs[|cs| - 1]) == k then [cs[|cs| - 1].finding] else [])
  }

  /** The position of the first contribution with key `k` (meaningful when there is one). */
  function FirstPos(cs: seq<Contribution>, k: Key): nat {
    if cs == [] then 0
    else if Group(cs[..|cs| - 1], k) != [] then FirstPos(cs[..|cs| - 1], k)
    else |cs| - 1
  }

  /** `b` is the earliest finding of `g` whose severity rank is the greatest in `g`. */
  ghost predicate EarliestMostSevere(g: seq<Finding>, b: Finding) {
    exists i :: 0 <= i < |g| && g[i] == b
      && (forall j :: 0 <= j < |g| ==> SeverityRank(g[j].severity) <= SeverityRank(b.severity))
      && (forall j :: 0 <= j < i ==> SeverityRank(g[j].severity) < SeverityRank(b.severity))
  }

  /** Every severity among the findings of `g`. */
  ghost function SeveritiesOf(g: seq<Finding>): set<string> {
    if g == [] then {} else SeveritiesOf(g[..|g| - 1]) + {g[|g| - 1].severity}
  }

  /** The union of the `file_paths` of the findings of `g`. */
  ghost function PathsOf(g: seq<Finding>): set<string> {
    if g == [] then {} else PathsOf(g[..|g| - 1]) + Elems(g[|g| - 1].filePaths)
  }

  /** The sum of the supports, over the keys in `order`. */
  function TotalSupport(order: seq<Key>, entries: map<Key, Entry>): nat
    requires forall k :: k in order ==> k in entries
  {
    if order == [] then 0
    else TotalSupport(order[..|order| - 1], entries) + entries[order[|order| - 1]].support
  }

  // ---------------------------------------------------------------- the invariant of the table

  ghost predicate KeysInv(cs: seq<Contribution>, t: Table) {
    && Distinct(t.order)
    && (forall k :: k in t.order <==> k in t.entries)
    && (forall k :: k in t.entries <==> Group(cs, k) != [])
    && (forall i, j :: 0 <= i < j < |t.order| ==> FirstPos(cs, t.order[i]) < FirstPos(cs, t.order[j]))
  }

  /** What an entry holds about the findings `g` of its group. */
  ghost predicate EntryMatches(g: seq<Finding>, e: Entry) {
    && e.support == |g|
    && EarliestMostSevere(g, e.best)
    && Distinct(e.severities) && Elems(e.severities) == SeveritiesOf(g)
    && Distinct(e.filePaths) && Elems(e.filePaths) == PathsOf(g)
  }

  ghost predicate EntriesInv(cs: seq<Contribution>, t: Table) {
    forall k :: k in t.entries ==> EntryMatches(Group(cs, k), t.entries[k])
  }

  ghost predicate TableInv(cs: seq<Contribution>, t: Table) {
    && KeysInv(cs, t)
    && EntriesInv(cs, t)
    && TotalSupport(t.order, t.entries) == |cs|
  }

  lemma {:induction false} GroupSnoc(cs: seq<Contribution>, c: Contribution, k: Key)
    ensures Group(cs + [c], k) == Group(cs, k) + (if KeyOf(c) == k then [c.finding] else [])
    ensures FirstPos(cs + [c], k) == if Group(cs, k) != [] then FirstPos(cs, k) else |cs|
  {
    assert (cs + [c])[..|cs|] == cs;
  }

  lemma {:induction false} FirstPosBound(cs: seq<Contribution>, k: Key)
    requires Group(cs, k) != []
    ensures FirstPos(cs, k) < |cs|
  {
    if cs != [] && Group(cs[..|cs| - 1], k) != [] {
      FirstPosBound(cs[..|cs| - 1], k);
    }
  }

  lemma {:induction false} TotalSupportFrame(order: seq<Key>, entries: map<Key, Entry>, k: Key, e: Entry)
    requires forall x :: x in order ==> x in entries
    requires k !in order
    ensures TotalSupport(order, entries[k := e]) == TotalSupport(order, entries)
  {
    if order != [] {
      TotalSupportFrame(order[..|order| - 1], entries, k, e);
    }
  }

  lemma {:induction false} TotalSupportBump(order: seq<Key>, entries: map<Key, Entry>, k: Key, e: Entry)
    requires forall x :: x in order ==> x in entries
    requires Distinct(order) && k in order && e.support == entries[k].support + 1
    ensures TotalSupport(order, entries[k := e]) == TotalSupport(order, entries) + 1
  {
    var n := |order| - 1;
    var init := order[..n];
    assert Distinct(init);
    if order[n] == k {
      assert k !in init;
      TotalSupportFrame(init, entries, k, e);
    } else {
      assert k in init by {
        var i :| 0 <= i < |order| && order[i] == k;
        assert init[i] == k;
      }
      TotalSupportBump(init, entries, k, e);
    }
  }

  lemma StepKeysNew(cs: seq<Contribution>, t: Table, c: Contribution)
    requires KeysInv(cs, t) && KeyOf(c) !in t.entries
    ensures KeysInv(cs + [c], Step(t, c))
  {
    var t' := Step(t, c);
    assert t'.order == t.order + [KeyOf(c)];
    StepNewMembers(cs, t, c);
    StepNewFirstPos(cs, t, c);
  }

  lemma StepNewMembers(cs: seq<Contribution>, t: Table, c: Contribution)
    requires KeysInv(cs, t) && KeyOf(c) !in t.entries
    ensures forall x :: x in Step(t, c).entries <==> Group(cs + [c], x) != []
  {
    forall x ensures x in Step(t, c).entries <==> Group(cs + [c], x) != [] {
      GroupSnoc(cs, c, x);
    }
  }

  lemma StepNewFirstPos(cs: seq<Contribution>, t: Table, c: Contribution)
    requires KeysInv(cs, t) && KeyOf(c) !in t.entries
    ensures var order := t.order + [KeyOf(c)];
      forall i, j :: 0 <= i < j < |order| ==> FirstPos(cs + [c], order[i]) < FirstPos(cs + [c], order[j])
  {
    var k := KeyOf(c);
    var order := t.order + [k];
    forall x | x in t.entries
      ensures FirstPos(cs + [c], x) == FirstPos(cs, x) < |cs|
    {
      GroupSnoc(cs, c, x);
      FirstPosBound(cs, x);
    }
    GroupSnoc(cs, c, k);
    forall i, j | 0 <= i < j < |order|
      ensures FirstPos(cs + [c], order[i]) < FirstPos(cs + [c], order[j])
    {
      assert order[i] == t.order[i] && order[i] in t.entries;
      if j == |t.order| {
        assert order[j] == k;
      } else {
        assert order[j] == t.order[j] && order[j] in t.entries;
      }
    }
  }

  lemma {:induction false} StepKeysOld(cs: seq<Contribution>, t: Table, c: Contribution)
    requires KeysInv(cs, t) && KeyOf(c) in t.entries
    ensures KeysInv(cs + [c], Step(t, c))
  {
    var t' := Step(t, c);
    assert t'.order == t.order;
    forall x ensures (x in t'.entries <==> Group(cs + [c], x) != [])
      && (Group(cs, x) != [] ==> FirstPos(cs + [c], x) == FirstPos(cs, x))
    {
      GroupSnoc(cs, c, x);
    }
  }

  lemma {:induction false} StepTotal(cs: seq<Contribution>, t: Table, c: Contribution)
    requires KeysInv(cs, t) && EntriesInv(cs, t) && TotalSupport(t.order, t.entries) == |cs|
    ensures TotalSupport(Step(t, c).order, Step(t, c).entries) == |cs| + 1
  {
    var k := KeyOf(c);
    var t' := Step(t, c);
    if k !in t.entries {
      TotalSupportFrame(t.order, t.entries, k, t'.entries[k]);
      assert t'.order[..|t'.order| - 1] == t.order;
    } else {
      TotalSupportBump(t.order, t.entries, k, t'.entries[k]);
    }
  }

  /** A group's first entry. */
  lemma EntryNew(f: Finding)
    ensures EntryMatches([f], Entry(f, 1, [f.severity], AddAll([], f.filePaths)))
  {
    assert [f][..0] == [];
    assert [f][0] == f;
  }

  /** A further finding of the group. */
  lemma EntryGrow(g: seq<Finding>, e: Entry, f: Finding)
    requires EntryMatches(g, e)
    ensures EntryMatches(g + [f], Grow(e, f))
  {
    assert (g + [f])[..|g|] == g;
    EarliestGrow(g, e.best, f);
  }

  /** A strictly more severe newcomer becomes the representative; otherwise the old one stays. */
  lemma EarliestGrow(g: seq<Finding>, b: Finding, f: Finding)
    requires EarliestMostSevere(g, b)
    ensures EarliestMostSevere(g + [f], if SeverityRank(f.severity) > SeverityRank(b.severity) then f else b)
  {
    var g' := g + [f];
    var i :| 0 <= i < |g| && g[i] == b
      && (forall j :: 0 <= j < |g| ==> SeverityRank(g[j].severity) <= SeverityRank(b.severity))
      && (forall j :: 0 <= j < i ==> SeverityRank(g[j].severity) < SeverityRank(b.severity));
    assert forall j :: 0 <= j < |g| ==> g'[j] == g[j];
    if SeverityRank(f.severity) > SeverityRank(b.severity) {
      assert g'[|g|] == f;
    } else {
      assert g'[i] == b;
    }
  }

  lemma {:induction false} StepEntryAt(cs: seq<Contribution>, t: Table, c: Contribution, x: Key)
    requires x in Step(t, c).entries
    requires x in t.entries <==> Group(cs, x) != []
    requires x in t.entries ==> EntryMatches(Group(cs, x), t.entries[x])
    ensures EntryMatches(Group(cs + [c], x), Step(t, c).entries[x])
  {
    GroupSnoc(cs, c, x);
    var f := c.finding;
    if x != KeyOf(c) {
      assert Group(cs + [c], x) == Group(cs, x) + [];
      assert Group(cs, x) + [] == Group(cs, x);
      assert x in t.entries;
      assert Step(t, c).entries[x] == t.entries[x];
    } else if x !in t.entries {
      assert Group(cs + [c], x) == [] + [f];
      assert [] + [f] == [f];
      EntryNew(f);
    } else {
      EntryGrow(Group(cs, x), t.entries[x], f);
    }
  }

  lemma {:induction false} StepEntries(cs: seq<Contribution>, t: Table, c: Contribution)
    requires EntriesInv(cs, t) && (forall k :: k in t.entries <==> Group(cs, k) != [])
    ensures EntriesInv(cs + [c], Step(t, c))
  {
    forall x | x in Step(t, c).entries
      ensures EntryMatches(Group(cs + [c], x), Step(t, c).entries[x])
    {
      StepEntryAt(cs, t, c, x);
    }
  }

  /** `Step` keeps the invariant: it is the inductive step of `AggregateInvariant`. */
  lemma {:induction false} StepPreserves(cs: seq<Contribution>, t: Table, c: Contribution)
    requires TableInv(cs, t)
    ensures TableInv(cs + [c], Step(t, c))
  {
    if KeyOf(c) in t.entries {
      StepKeysOld(cs, t, c);
    } else {
      StepKeysNew(cs, t, c);
    }
    StepEntries(cs, t, c);
    StepTotal(cs, t, c);
  }

  lemma {:induction false} FoldInvariant(cs: seq<Contribution>)
    ensures TableInv(cs, Fold(cs))
  {
    if cs != [] {
      var init, c := cs[..|cs| - 1], cs[|cs| - 1];
      assert init + [c] == cs;
      FoldInvariant(init);
      StepPreserves(init, Fold(init), c);
    }
  }

  // ---------------------------------------------------------------- what `_aggregate` computes

  lemma {:induction false} ContributionsAppend(a: seq<Finding>, b: seq<Finding>)
    ensures Contributions(a + b) == Contributions(a) + Contributions(b)
  {
    if b == [] {
      assert a + b == a;
    } else {
      var b' := b[..|b| - 1];
      var last := PathContributions(b[|b| - 1]);
      assert (a + b)[..|a + b| - 1] == a + b';
      assert (a + b)[|a + b| - 1] == b[|b| - 1];
      assert Contributions(a + b) == Contributions(a + b') + last;
      assert Contributions(b) == Contributions(b') + last;
      ContributionsAppend(a, b');
    }
  }

  lemma {:induction false} ContributionsLength(fs: seq<Finding>)
    ensures |Contributions(fs)| == TotalPaths(fs)
  {
    if fs != [] {
      ContributionsLength(fs[..|fs| - 1]);
    }
  }

  /** Some path entry of some finding yields key `k`. */
  ghost predicate KeyOccurs(fs: seq<Finding>, k: Key) {
    exists i, j :: 0 <= i < |fs| && 0 <= j < |fs[i].filePaths| && Key(TitleKey(fs[i].title), fs[i].filePaths[j]) == k
  }

  lemma {:induction false} GroupOccurs(fs: seq<Finding>, k: Key)
    ensures Group(Contributions(fs), k) != [] <==> KeyOccurs(fs, k)
  {
    if fs != [] {
      var init, f := fs[..|fs| - 1], fs[|fs| - 1];
      GroupOccurs(init, k);
      GroupAppend(Contributions(init), PathContributions(f), k);
      if KeyOccurs(fs, k) {
        OccursInPrefixOrLast(fs, k);
      }
      if Group(Contributions(init), k) != [] {
        var i, j :| 0 <= i < |init| && 0 <= j < |init[i].filePaths| && Key(TitleKey(init[i].title), init[i].filePaths[j]) == k;
        assert fs[i] == init[i];
      }
      if exists j :: 0 <= j < |f.filePaths| && KeyOf(PathContributions(f)[j]) == k {
        var j :| 0 <= j < |f.filePaths| && KeyOf(PathContributions(f)[j]) == k;
        assert fs[|fs| - 1] == f;
      } else {
        GroupNone(PathContributions(f), k);
      }
    }
  }

  lemma OccursInPrefixOrLast(fs: seq<Finding>, k: Key)
    requires fs != [] && KeyOccurs(fs, k)
    ensures KeyOccurs(fs[..|fs| - 1], k) || Group(PathContributions(fs[|fs| - 1]), k) != []
  {
    var init, f := fs[..|fs| - 1], fs[|fs| - 1];
    var i, j :| 0 <= i < |fs| && 0 <= j < |fs[i].filePaths| && Key(TitleKey(fs[i].title), fs[i].filePaths[j]) == k;
    if i < |init| {
      assert init[i] == fs[i];
    } else {
      GroupHas(PathContributions(f), k, j);
    }
  }

  lemma {:induction false} GroupAppend(a: seq<Contribution>, b: seq<Contribution>, k: Key)
    ensures Group(a + b, k) == Group(a, k) + Group(b, k)
  {
    if b == [] {
      assert a + b == a;
    } else {
      var b' := b[..|b| - 1];
      assert (a + b)[..|a + b| - 1] == a + b';
      assert (a + b)[|a + b| - 1] == b[|b| - 1];
      GroupAppend(a, b', k);
    }
  }

  lemma {:induction false} GroupHas(cs: seq<Contribution>, k: Key, j: nat)
    requires j < |cs| && KeyOf(cs[j]) == k
    ensures Group(cs, k) != []
  {
    if j < |cs| - 1 {
      GroupHas(cs[..|cs| - 1], k, j);
    }
  }

  lemma {:induction false} GroupNone(cs: seq<Contribution>, k: Key)
    requires forall j :: 0 <= j < |cs| ==> KeyOf(cs[j]) != k
    ensures Group(cs, k) == []
  {
    if cs != [] {
      GroupNone(cs[..|cs| - 1], k);
    }
  }

  /**
   * The table `_aggregate` builds: one entry per key that some path entry
   * yields, the keys in order of first appearance, each entry holding the
   * group's size, its earliest most severe finding, every severity seen and
   * the union of its paths, and supports that add up to the number of path
   * entries.
   */
  lemma AggregateSpec(fs: seq<Finding>)
    ensures var t := Aggregate(fs);
      var cs := Contributions(fs);
      && Distinct(t.order)
      && (forall k :: k in t.order <==> k in t.entries)
      && (forall k :: k in t.entries <==> KeyOccurs(fs, k))
      && (forall i, j :: 0 <= i < j < |t.order| ==> FirstPos(cs, t.order[i]) < FirstPos(cs, t.order[j]))
      && (forall k :: k in t.entries ==> EntryMatches(Group(cs, k), t.entries[k]))
      && TotalSupport(t.order, t.entries) == TotalPaths(fs)
  {
    FoldInvariant(Contributions(fs));
    ContributionsLength(fs);
    forall k ensures Group(Contributions(fs), k) != [] <==> KeyOccurs(fs, k) {
      GroupOccurs(fs, k);
    }
  }

  /** A finding with no paths leaves the table as it was. */
  lemma EmptyPathsContributeNothing(a: seq<Finding>, f: Finding, b: seq<Finding>)
    requires f.filePaths == []
    ensures Aggregate(a + [f] + b) == Aggregate(a + b)
  {
    ContributionsAppend(a + [f], b);
    ContributionsAppend(a, [f]);
    ContributionsAppend(a, b);
    assert [f][..0] == [];
    assert PathContributions(f) == [];
    assert Contributions([f]) == [];
    assert Contributions(a + [f]) == Contributions(a);
  }

  /** The fold over `cs + [c]`, as one `Step` after the fold over `cs`. */
  lemma FoldSnoc(cs: seq<Contribution>, c: Contribution, order: seq<Key>, entries: map<Key, Entry>)
    requires Fold(cs) == Table(order, entries)
    ensures KeyOf(c) !in entries ==>
      Fold(cs + [c]) == Table(order + [KeyOf(c)], entries[KeyOf(c) := Entry(c.finding, 1, [c.finding.severity], AddAll([], c.finding.filePaths))])
    ensures KeyOf(c) in entries ==>
      Fold(cs + [c]) == Table(order, entries[KeyOf(c) := Grow(entries[KeyOf(c)], c.finding)])
  {
    assert (cs + [c])[..|cs|] == cs;
  }

  /**
   * The body of the inner loop of `_aggregate`: file one finding under one
   * path, continuing the table built from the contributions `seen`.
   */
  method AddContribution(order0: seq<Key>, entries0: map<Key, Entry>, finding: Finding, path: string,
                         ghost seen: seq<Contribution>)
    returns (order: seq<Key>, entries: map<Key, Entry>)
    requires Table(order0, entries0) == Fold(seen)
    ensures Table(order, entries) == Fold(seen + [Contribution(finding, path)])
  {
    var c := Contribution(finding, path);
    var key := KeyOf(c);
    FoldSnoc(seen, c, order0, entries0);
    order, entries := order0, entries0;
    if key !in entries {
      order := order + [key];
      entries := entries[key := Entry(finding, 1, [finding.severity], AddAll([], finding.filePaths))];
    } else {
      var entry := entries[key];
      var best := entry.best;
      if SeverityRank(finding.severity) > SeverityRank(best.severity) {
        best := finding;
      }
      var grown := Entry(best, entry.support + 1, AddNew(entry.severities, finding.severity), AddAll(entry.filePaths, finding.filePaths));
      assert grown == Grow(entry, finding);
      entries := entries[key := grown];
    }
  }

  /**
   * The inner loop of `_aggregate`: files one finding under each of its
   * paths, continuing the table built from the contributions `seen0`.
   */
  method AddPaths(order0: seq<Key>, entries0: map<Key, Entry>, finding: Finding, ghost seen0: seq<Contribution>)
    returns (order: seq<Key>, entries: map<Key, Entry>)
    requires Table(order0, entries0) == Fold(seen0)
    ensures Table(order, entries) == Fold(seen0 + PathContributions(finding))
  {
    order, entries := order0, entries0;
    ghost var cs := PathContributions(finding);
    ghost var seen := seen0;
    var j := 0;
    while j < |finding.filePaths|
      invariant 0 <= j <= |finding.filePaths|
      invariant seen + cs[j..] == seen0 + cs
      invariant Table(order, entries) == Fold(seen)
    {
      var path := finding.filePaths[j];
      order, entries := AddContribution(order, entries, finding, path, seen);
      ghost var seen' := seen + [Contribution(finding, path)];
      DropCons(cs, j, seen, Contribution(finding, path));
      assert seen' + cs[j + 1..] == seen0 + cs;
      seen := seen';
      j := j + 1;
    }
    assert seen == seen + cs[j..];
  }

  /** `_aggregate`: the outer loop over the findings, the inner one over each finding's paths. */
  method AggregateFindings(findings: seq<Finding>) returns (order: seq<Key>, entries: map<Key, Entry>)
    ensures Table(order, entries) == Aggregate(findings)
  {
    order, entries := [], map[];
    var i := 0;
    while i < |findings|
      invariant 0 <= i <= |findings|
      invariant Table(order, entries) == Fold(Contributions(findings[..i]))
    {
      assert findings[..i + 1][..i] == findings[..i];
      order, entries := AddPaths(order, entries, findings[i], Contributions(findings[..i]));
      i := i + 1;
    }
    assert findings[..i] == findings;
  }

  // ---------------------------------------------------------------- deduplicate_findings

  /** Every key of the order has an entry. */
  predicate Covered(t: Table) {
    forall k :: k in t.order ==> k in t.entries
  }

  lemma AggregateCovered(fs: seq<Finding>)
    ensures Covered(Aggregate(fs))
  {
    AggregateSpec(fs);
  }

  /** The representative of an entry, with its merged paths sorted. */
  function Emit(e: Entry): Finding {
    e.best.(filePaths := SortStrings(e.filePaths))
  }

  /** One emitted finding per key, in the order of the keys. */
  function EmitAll(t: Table): (out: seq<Finding>)
    requires Covered(t)
    ensures |out| == |t.order|
  {
    seq(|t.order|, i requires 0 <= i < |t.order| => Emit(t.entries[t.order[i]]))
  }

  /** `deduplicate_findings` */
  method DeduplicateFindings(findings: seq<Finding>) returns (deduped: seq<Finding>)
    ensures Covered(Aggregate(findings))
    ensures deduped == EmitAll(Aggregate(findings))
  {
    var order, entries := AggregateFindings(findings);
    AggregateCovered(findings);
    deduped := EmitEntries(order, entries);
  }

  /** The loop of `deduplicate_findings`: each representative, with its group's paths sorted. */
  method EmitEntries(order: seq<Key>, entries: map<Key, Entry>) returns (deduped: seq<Finding>)
    requires Covered(Table(order, entries))
    ensures deduped == EmitAll(Table(order, entries))
  {
    deduped := [];
    var i := 0;
    while i < |order|
      invariant 0 <= i <= |order|
      invariant |deduped| == i
      invariant forall k :: 0 <= k < i ==> deduped[k] == Emit(entries[order[k]])
    {
      var entry := entries[order[i]];
      var best := entry.best;
      best := best.(filePaths := SortStrings(entry.filePaths));
      deduped := deduped + [best];
      i := i + 1;
    }
    EmitAllElementwise(order, entries, deduped);
  }

  lemma EmitAllElementwise(order: seq<Key>, entries: map<Key, Entry>, deduped: seq<Finding>)
    requires Covered(Table(order, entries))
    requires |deduped| == |order|
    requires forall k :: 0 <= k < |order| ==> deduped[k] == Emit(entries[order[k]])
    ensures deduped == EmitAll(Table(order, entries))
  {
  }

  // ---------------------------------------------------------------- deduplicate_findings as written

  /**
   * The path list each representative ends with when the loop assigns
   * `best.file_paths` in place, over the first `n` keys: a finding that
   * represents several keys keeps the list of the last of them. Finding
   * objects are identified by their values.
   */
  function FinalPaths(t: Table, n: nat): (last: map<Finding, seq<string>>)
    requires Covered(t) && n <= |t.order|
    ensures forall i :: 0 <= i < n ==> t.entries[t.order[i]].best in last
  {
    if n == 0 then map[]
    else
      var e := t.entries[t.order[n - 1]];
      FinalPaths(t, n - 1)[e.best := SortStrings(e.filePaths)]
  }

  /**
   * `deduplicate_findings` as written: the list holds references, so every
   * occurrence of a shared representative shows the paths assigned last.
   */
  function EmitAllAliased(t: Table): (out: seq<Finding>)
    requires Covered(t)
    ensures |out| == |t.order|
  {
    var last := FinalPaths(t, |t.order|);
    seq(|t.order|, i requires 0 <= i < |t.order| =>
      var b := t.entries[t.order[i]].best;
      b.(filePaths := last[b]))
  }

  /** A finding reported for two files, and a less severe duplicate naming a third. */
  const SharedHigh := Finding("T", "", "High", ["a", "b"], Absent, Absent)
  const SharedLow := Finding("T", "", "Low", ["a", "c"], Absent, Absent)

  lemma ExampleTitleKey()
    ensures TitleKey("T") == "t"
  {
    assert Strip("T") == "T";
    assert Lower("T") == "t";
  }

  lemma ExampleContributions()
    ensures Contributions([SharedHigh, SharedLow]) ==
      [Contribution(SharedHigh, "a"), Contribution(SharedHigh, "b"), Contribution(SharedLow, "a"), Contribution(SharedLow, "c")]
  {
    assert PathContributions(SharedHigh) == [Contribution(SharedHigh, "a"), Contribution(SharedHigh, "b")];
    assert PathContributions(SharedLow) == [Contribution(SharedLow, "a"), Contribution(SharedLow, "c")];
    assert [SharedHigh][..0] == [];
    assert Contributions([SharedHigh]) == [] + PathContributions(SharedHigh);
    assert [SharedHigh, SharedLow][..1] == [SharedHigh];
    assert Contributions([SharedHigh, SharedLow]) == Contributions([SharedHigh]) + PathContributions(SharedLow);
  }

  lemma FoldPush(cs: seq<Contribution>, c: Contribution)
    ensures Fold(cs + [c]) == Step(Fold(cs), c)
  {
    assert (cs + [c])[..|cs|] == cs;
  }

  lemma AddAllFresh(s: seq<string>, y: string)
    requires y !in s
    ensures AddAll(s, [y]) == s + [y]
  {
    assert [y][1..] == [];
  }

  lemma AddAllPair(s: seq<string>, x: string, y: string)
    ensures AddAll(s, [x, y]) == AddAll(AddNew(s, x), [y])
  {
    assert [x, y][1..] == [y];
  }

  lemma ExampleUnionHigh()
    ensures AddAll([], SharedHigh.filePaths) == ["a", "b"]
  {
    AddAllPair([], "a", "b");
    assert "a" != "b";
    AddAllFresh(["a"], "b");
  }

  lemma ExampleUnionLow()
    ensures AddAll([], SharedLow.filePaths) == ["a", "c"]
  {
    AddAllPair([], "a", "c");
    assert "a" != "c";
    AddAllFresh(["a"], "c");
  }

  lemma ExampleUnionMerged()
    ensures AddAll(["a", "b"], SharedLow.filePaths) == ["a", "b", "c"]
  {
    AddAllPair(["a", "b"], "a", "c");
    assert "a" != "c" && "b" != "c";
    AddAllFresh(["a", "b"], "c");
  }

  lemma ExampleSeverities()
    ensures AddNew(["High"], "Low") == ["High", "Low"]
  {
    assert "High" != "Low";
  }

  const KeyA := Key("t", "a")
  const KeyB := Key("t", "b")
  const KeyC := Key("t", "c")
  const EntryB := Entry(SharedHigh, 1, ["High"], ["a", "b"])
  const EntryA := Entry(SharedHigh, 2, ["High", "Low"], ["a", "b", "c"])
  const EntryC := Entry(SharedLow, 1, ["Low"], ["a", "c"])

  lemma ExampleFirstStep()
    ensures Step(Table([], map[]), Contribution(SharedHigh, "a")) == Table([KeyA], map[KeyA := EntryB])
  {
    ExampleTitleKey();
    ExampleUnionHigh();
  }

  lemma ExampleSecondStep()
    ensures Step(Table([KeyA], map[KeyA := EntryB]), Contribution(SharedHigh, "b")) ==
      Table([KeyA, KeyB], map[KeyA := EntryB, KeyB := EntryB])
  {
    ExampleTitleKey();
    ExampleUnionHigh();
    assert KeyOf(Contribution(SharedHigh, "b")) == KeyB;
  }

  lemma ExampleFirstTwo()
    ensures Fold([Contribution(SharedHigh, "a"), Contribution(SharedHigh, "b")]) ==
      Table([KeyA, KeyB], map[KeyA := EntryB, KeyB := EntryB])
  {
    var c1, c2 := Contribution(SharedHigh, "a"), Contribution(SharedHigh, "b");
    ExampleFirstStep();
    ExampleSecondStep();
    FoldPush([], c1);
    assert [] + [c1] == [c1];
    FoldPush([c1], c2);
    assert [c1] + [c2] == [c1, c2];
  }

  lemma ExampleGrow()
    ensures Grow(EntryB, SharedLow) == EntryA
  {
    ExampleUnionMerged();
    ExampleSeverities();
    assert SeverityRank("Low") == 1 && SeverityRank("High") == 3;
  }

  lemma ExampleThirdStep()
    ensures Step(Table([KeyA, KeyB], map[KeyA := EntryB, KeyB := EntryB]), Contribution(SharedLow, "a")) ==
      Table([KeyA, KeyB], map[KeyA := EntryA, KeyB := EntryB])
  {
    ExampleTitleKey();
    ExampleGrow();
    assert KeyOf(Contribution(SharedLow, "a")) == KeyA;
    assert map[KeyA := EntryB, KeyB := EntryB][KeyA := EntryA] == map[KeyA := EntryA, KeyB := EntryB];
  }

  lemma ExampleFirstThree()
    ensures Fold([Contribution(SharedHigh, "a"), Contribution(SharedHigh, "b"), Contribution(SharedLow, "a")]) ==
      Table([KeyA, KeyB], map[KeyA := EntryA, KeyB := EntryB])
  {
    var c1, c2, c3 := Contribution(SharedHigh, "a"), Contribution(SharedHigh, "b"), Contribution(SharedLow, "a");
    ExampleFirstTwo();
    ExampleThirdStep();
    FoldPush([c1, c2], c3);
    assert [c1, c2] + [c3] == [c1, c2, c3];
  }

  lemma ExampleFourthStep()
    ensures Step(Table([KeyA, KeyB], map[KeyA := EntryA, KeyB := EntryB]), Contribution(SharedLow, "c")) ==
      Table([KeyA, KeyB, KeyC], map[KeyA := EntryA, KeyB := EntryB, KeyC := EntryC])
  {
    ExampleTitleKey();
    ExampleUnionLow();
    assert KeyOf(Contribution(SharedLow, "c")) == KeyC;
  }

  lemma ExampleTable()
    ensures Aggregate([SharedHigh, SharedLow]) == Table([KeyA, KeyB, KeyC], map[KeyA := EntryA, KeyB := EntryB, KeyC := EntryC])
  {
    ExampleContributions();
    ExampleFirstThree();
    ExampleFourthStep();
    var c1, c2, c3, c4 := Contribution(SharedHigh, "a"), Contribution(SharedHigh, "b"), Contribution(SharedLow, "a"), Contribution(SharedLow, "c");
    FoldPush([c1, c2, c3], c4);
    assert [c1, c2, c3] + [c4] == [c1, c2, c3, c4];
  }

  /** Sorting the two path lists of the example leaves them as they are. */
  lemma ExampleSorts()
    ensures SortStrings(["a", "b"]) == ["a", "b"]
    ensures SortStrings(["a", "b", "c"]) == ["a", "b", "c"]
  {
    assert StrLt("a", "b") && StrLt("b", "c");
    assert SortStrings(["c"]) == ["c"];
    assert ["b", "c"][1..] == ["c"];
    assert SortStrings(["b", "c"]) == ["b", "c"];
    assert ["a", "b", "c"][1..] == ["b", "c"];
    assert ["a", "b"][1..] == ["b"];
  }

  lemma ExampleFinalPaths(t: Table)
    requires t == Table([KeyA, KeyB, KeyC], map[KeyA := EntryA, KeyB := EntryB, KeyC := EntryC])
    ensures SharedHigh in FinalPaths(t, 3) && FinalPaths(t, 3)[SharedHigh] == SortStrings(["a", "b"])
  {
    assert SharedHigh != SharedLow;
    assert FinalPaths(t, 2)[SharedHigh] == SortStrings(["a", "b"]);
  }

  /**
   * The two findings give three keys, the first two both represented by the
   * `High` finding. The first key's union of paths is `a, b, c`, but the
   * in-place assignment for the second key leaves the shared finding, and so
   * the first element of the result, with `a, b` only.
   */
  lemma SharedRepresentativeLosesPaths()
    ensures Covered(Aggregate([SharedHigh, SharedLow]))
    ensures |Aggregate([SharedHigh, SharedLow]).order| == 3
    ensures EmitAll(Aggregate([SharedHigh, SharedLow]))[0].filePaths == ["a", "b", "c"]
    ensures EmitAllAliased(Aggregate([SharedHigh, SharedLow]))[0].filePaths == ["a", "b"]
  {
    ExampleTable();
    ExampleSorts();
    ExampleFinalPaths(Aggregate([SharedHigh, SharedLow]));
  }

  /** Sorting a duplicate-free list of paths: strictly increasing, same elements. */
  lemma SortedPaths(s: seq<string>)
    requires Distinct(s)
    ensures StrictlySorted(SortStrings(s))
    ensures Elems(SortStrings(s)) == Elems(s)
    ensures |SortStrings(s)| == |s|
  {
    SortStringsSpec(s);
    var r := SortStrings(s);
    assert |r| == |multiset(r)| == |multiset(s)| == |s|;
    forall x ensures x in r <==> x in s {
      assert x in r <==> x in multiset(r);
      assert x in s <==> x in multiset(s);
    }
  }

  /** The emitted finding of an entry about the findings `g`. */
  ghost predicate EmittedFor(g: seq<Finding>, f: Finding) {
    && (exists b :: EarliestMostSevere(g, b) && f == b.(filePaths := f.filePaths))
    && StrictlySorted(f.filePaths)
    && Elems(f.filePaths) == PathsOf(g)
  }

  lemma EmitSpec(g: seq<Finding>, e: Entry)
    requires EntryMatches(g, e)
    ensures EmittedFor(g, Emit(e))
  {
    SortedPaths(e.filePaths);
    assert Emit(e) == e.best.(filePaths := Emit(e).filePaths);
  }

  /**
   * What `deduplicate_findings` returns: one finding per key, keys in order
   * of first appearance; each is the earliest most severe finding of its
   * group, carrying the sorted union of the group's paths in place of its own.
   */
  lemma DeduplicateSpec(fs: seq<Finding>)
    ensures Covered(Aggregate(fs))
    ensures var t := Aggregate(fs);
      var out := EmitAll(t);
      && |out| == |t.order| <= TotalPaths(fs)
      && forall i :: 0 <= i < |out| ==> EmittedFor(Group(Contributions(fs), t.order[i]), out[i])
  {
    AggregateSpec(fs);
    var t := Aggregate(fs);
    var cs := Contributions(fs);
    ContributionsLength(fs);
    DistinctBound(t.order, cs);
    forall i | 0 <= i < |t.order|
      ensures EmittedFor(Group(cs, t.order[i]), EmitAll(t)[i])
    {
      EmitSpec(Group(cs, t.order[i]), t.entries[t.order[i]]);
    }
  }

  /**
   * The keys are distinct and each has its own first contribution, so there
   * are no more keys than contributions.
   */
  lemma DistinctBound(order: seq<Key>, cs: seq<Contribution>)
    requires forall i, j :: 0 <= i < j < |order| ==> FirstPos(cs, order[i]) < FirstPos(cs, order[j])
    requires forall k :: k in order ==> Group(cs, k) != []
    ensures |order| <= |cs|
  {
    if order != [] {
      var last := order[|order| - 1];
      FirstPosBound(cs, last);
      MonotoneBound(order, cs);
    }
  }

  lemma {:induction false} MonotoneBound(order: seq<Key>, cs: seq<Contribution>)
    requires order != []
    requires forall i, j :: 0 <= i < j < |order| ==> FirstPos(cs, order[i]) < FirstPos(cs, order[j])
    ensures FirstPos(cs, order[|order| - 1]) >= |order| - 1
  {
    if |order| > 1 {
      var init := order[..|order| - 1];
      MonotoneBound(init, cs);
      assert FirstPos(cs, order[|order| - 2]) < FirstPos(cs, order[|order| - 1]);
    }
  }

  // ---------------------------------------------------------------- select_top_findings

  const ConsensusMarker := "Consensus:"

  /** The sort key of a severity: its rank, alone in a one-element tuple. */
  function SeverityKey(severity: string): seq<int> {
    [SeverityRank(severity)]
  }

  /** `sorted(severities, key=rank, reverse=True)` */
  function SeverityOrder(severities: seq<string>): seq<string> {
    SortDesc(severities, SeverityKey)
  }

  /** The listed severities: most severe first, each seen severity once, ties in the order seen. */
  lemma SeverityOrderSpec(severities: seq<string>)
    ensures var r := SeverityOrder(severities);
      && (forall i, j :: 0 <= i < j < |r| ==> SeverityRank(r[i]) >= SeverityRank(r[j]))
      && multiset(r) == multiset(severities)
      && forall n :: WithKey(r, SeverityKey, [n]) == WithKey(severities, SeverityKey, [n])
  {
    var r := SeverityOrder(severities);
    SortDescSorted(severities, SeverityKey);
    SortDescPermutation(severities, SeverityKey);
    forall n ensures WithKey(r, SeverityKey, [n]) == WithKey(severities, SeverityKey, [n]) {
      SortDescStable(severities, SeverityKey, [n]);
    }
    forall i, j | 0 <= i < j < |r| ensures SeverityRank(r[i]) >= SeverityRank(r[j]) {
      assert LexGe(SeverityKey(r[i]), SeverityKey(r[j]));
    }
  }

  /** The sentence appended to the description of a finding several personas reported. */
  function ConsensusNote(support: nat, severities: seq<string>): (note: string)
    ensures Contains(note, ConsensusMarker)
  {
    var note := "\n\nConsensus: " + NatToDecimal(support) + " personas independently reported this issue (severities seen: "
      + Join(SeverityOrder(severities), ", ") + ").";
    assert note[2..][..|ConsensusMarker|] == ConsensusMarker;
    ContainsOfSuffix(note, 2, ConsensusMarker);
    note
  }

  /**
   * The description after the consensus step of `select_top_findings`. The
   * note is appended, never inserted: a description reported by one persona,
   * or already carrying a consensus note, is left alone; otherwise the result
   * carries the note.
   */
  function Annotate(description: string, support: nat, severities: seq<string>): (r: string)
    ensures StartsWith(r, description)
    ensures support <= 1 || Contains(description, ConsensusMarker) ==> r == description
    ensures support > 1 ==> Contains(r, ConsensusMarker)
    ensures r != description <==> support > 1 && !Contains(description, ConsensusMarker)
  {
    if support > 1 && !Contains(description, ConsensusMarker) then
      var note := ConsensusNote(support, severities);
      ContainsInSuffix(description, note, ConsensusMarker);
      assert (description + note)[..|description|] == description;
      assert |description + note| > |description|;
      description + note
    else
      description
  }

  /** Annotating an annotated description changes nothing: the note is never added twice. */
  lemma AnnotateIdempotent(description: string, support: nat, severities: seq<string>, support': nat, severities': seq<string>)
    requires support > 1
    ensures var once := Annotate(description, support, severities);
      Annotate(once, support', severities') == once
  {
  }

  /** An entry's representative as ranked: paths sorted, consensus noted. */
  function Prepare(e: Entry): Finding {
    e.best.(filePaths := SortStrings(e.filePaths), description := Annotate(e.best.description, e.support, e.severities))
  }

  /** `(support, severity rank, confidence, -false positive risk, breadth)` */
  function Score(e: Entry): (score: seq<int>)
    ensures |score| == 5 && score[0] == e.support && score[1] == SeverityRank(e.best.severity)
  {
    [e.support, SeverityRank(e.best.severity), ScoreValue(e.best.confidenceScore),
     -ScoreValue(e.best.falsePositiveRisk), |SortStrings(e.filePaths)|]
  }

  /** An element of `scored`: a score and the finding it ranks. */
  datatype Scored = Scored(score: seq<int>, finding: Finding)

  function ScoreOf(s: Scored): seq<int> {
    s.score
  }

  /** The element `scored` gets for one entry. */
  function ScoredEntry(e: Entry): Scored {
    Scored(Score(e), Prepare(e))
  }

  /** The list `scored` before sorting, one element per key in key order. */
  function ScoredAll(t: Table): (out: seq<Scored>)
    requires Covered(t)
    ensures |out| == |t.order|
  {
    seq(|t.order|, i requires 0 <= i < |t.order| => ScoredEntry(t.entries[t.order[i]]))
  }

  /** The end of the slice `[:limit]` of a list of length `n`, negative limits counting from the end. */
  function SliceEnd(n: nat, limit: int): (end: nat)
    ensures end <= n
    ensures limit >= 0 ==> end == if limit < n then limit else n
    ensures limit < 0 ==> end == if n + limit > 0 then n + limit else 0
  {
    if limit >= 0 then (if limit < n then limit else n)
    else if n + limit > 0 then n + limit else 0
  }

  /** `scored` after `scored.sort(key=score, reverse=True)` */
  function Ranked(t: Table): seq<Scored>
    requires Covered(t)
  {
    SortDesc(ScoredAll(t), ScoreOf)
  }

  /** The loop of `select_top_findings` over the entries: prepare and score each representative. */
  method ScoreEntries(order: seq<Key>, entries: map<Key, Entry>) returns (scored: seq<Scored>)
    requires Covered(Table(order, entries))
    ensures scored == ScoredAll(Table(order, entries))
  {
    scored := [];
    var i := 0;
    while i < |order|
      invariant 0 <= i <= |order|
      invariant |scored| == i
      invariant forall k :: 0 <= k < i ==>
                  scored[k] == ScoredEntry(entries[order[k]])
    {
      var item := ScoreEntry(entries[order[i]]);
      ScoredSnoc(order, entries, scored, item);
      scored := scored + [item];
      i := i + 1;
    }
    ScoredAllElementwise(order, entries, scored);
  }

  lemma ScoredSnoc(order: seq<Key>, entries: map<Key, Entry>, scored: seq<Scored>, item: Scored)
    requires Covered(Table(order, entries))
    requires |scored| < |order|
    requires forall k :: 0 <= k < |scored| ==> scored[k] == ScoredEntry(entries[order[k]])
    requires item == ScoredEntry(entries[order[|scored|]])
    ensures forall k :: 0 <= k < |scored| + 1 ==> (scored + [item])[k] == ScoredEntry(entries[order[k]])
  {
  }

  lemma ScoredAllElementwise(order: seq<Key>, entries: map<Key, Entry>, scored: seq<Scored>)
    requires Covered(Table(order, entries))
    requires |scored| == |order|
    requires forall k :: 0 <= k < |order| ==> scored[k] == ScoredEntry(entries[order[k]])
    ensures scored == ScoredAll(Table(order, entries))
  {
  }

  /** One pass of that loop: sort the paths, note the consensus, read the scores. */
  method ScoreEntry(entry: Entry) returns (item: Scored)
    ensures item == ScoredEntry(entry)
  {
    var best := entry.best;
    var support := entry.support;
    var severities := SeverityOrder(entry.severities);
    best := best.(filePaths := SortStrings(entry.filePaths));
    if support > 1 {
      var note := "\n\nConsensus: " + NatToDecimal(support) + " personas independently reported this issue (severities seen: "
        + Join(severities, ", ") + ").";
      assert note == ConsensusNote(support, entry.severities);
      if !Contains(best.description, ConsensusMarker) {
        best := best.(description := best.description + note);
      }
    }
    var confidence := ScoreValue(best.confidenceScore);
    var falsePositiveRisk := ScoreValue(best.falsePositiveRisk);
    var score := [support, SeverityRank(best.severity), confidence, -falsePositiveRisk, |best.filePaths|];
    item := Scored(score, best);
  }

  /** `select_top_findings`: aggregate, score, sort by score (highest first, stable), keep `[:limit]`. */
  method SelectTopFindings(findings: seq<Finding>, limit: int := 20) returns (top: seq<Finding>)
    ensures Covered(Aggregate(findings))
    ensures var ranked := Ranked(Aggregate(findings));
      && |ranked| == |Aggregate(findings).order|
      && |top| == SliceEnd(|ranked|, limit)
      && forall i :: 0 <= i < |top| ==> top[i] == ranked[i].finding
  {
    var order, entries := AggregateFindings(findings);
    AggregateCovered(findings);
    var scored := ScoreEntries(order, entries);
    var ranked := SortDesc(scored, ScoreOf);
    assert ranked == Ranked(Aggregate(findings));
    SortDescPermutation(scored, ScoreOf);
    var n := SliceEnd(|ranked|, limit);
    top := seq(n, k requires 0 <= k < n => ranked[k].finding);
  }

  /**
   * The ranking: every group appears once among the ranked elements; scores
   * never increase along them; elements with equal scores keep the order of
   * their keys; and the result is the first `limit` of them.
   */
  lemma RankedSpec(t: Table)
    requires Covered(t)
    ensures var r := Ranked(t);
      && multiset(r) == multiset(ScoredAll(t))
      && |r| == |t.order|
      && SortedDesc(r, ScoreOf)
      && forall k :: WithKey(r, ScoreOf, k) == WithKey(ScoredAll(t), ScoreOf, k)
  {
    SortDescPermutation(ScoredAll(t), ScoreOf);
    SortDescSorted(ScoredAll(t), ScoreOf);
    forall k ensures WithKey(Ranked(t), ScoreOf, k) == WithKey(ScoredAll(t), ScoreOf, k) {
      SortDescStable(ScoredAll(t), ScoreOf, k);
    }
  }

  /**
   * A selected finding outranks every group left out: the selection is a
   * prefix of the ranking, and every element after it has a score no greater
   * than any selected one.
   */
  lemma SelectionOutranksRest(t: Table, limit: int)
    requires Covered(t)
    ensures var r := Ranked(t);
      var n := SliceEnd(|r|, limit);
      forall i, j :: 0 <= i < n <= j < |r| ==> LexGe(r[i].score, r[j].score)
  {
    SortDescSorted(ScoredAll(t), ScoreOf);
  }

  /**
   * The element `select_top_findings` scores for the findings `g` of a
   * group: the group's earliest most severe finding, with the sorted union of
   * the group's paths in place of its own and its description annotated with
   * the group's size and severities, scored by the size of the group, the
   * finding's severity rank, confidence and false positive risk, and the
   * number of distinct paths.
   */
  ghost predicate PreparedFor(g: seq<Finding>, s: Scored) {
    && (exists b, severities :: PreparedFrom(g, b, severities, s))
    && StrictlySorted(s.finding.filePaths)
    && Elems(s.finding.filePaths) == PathsOf(g)
  }

  /** `s` is prepared from the representative `b` and the severity list `severities` of `g`. */
  ghost predicate PreparedFrom(g: seq<Finding>, b: Finding, severities: seq<string>, s: Scored) {
    && EarliestMostSevere(g, b)
    && Distinct(severities) && Elems(severities) == SeveritiesOf(g)
    && s.finding == b.(filePaths := s.finding.filePaths,
                        description := Annotate(b.description, |g|, severities))
    && |s.score| == 5
    && s.score[0] == |g| && s.score[1] == SeverityRank(b.severity)
    && s.score[2] == ScoreValue(b.confidenceScore) && s.score[3] == -ScoreValue(b.falsePositiveRisk)
    && s.score[4] == |PathsOf(g)|
  }

  lemma PrepareSpec(g: seq<Finding>, e: Entry)
    requires EntryMatches(g, e)
    ensures PreparedFor(g, ScoredEntry(e))
  {
    SortedPaths(e.filePaths);
    PreparedFromEntry(g, e);
  }

  lemma PreparedFromEntry(g: seq<Finding>, e: Entry)
    requires EntryMatches(g, e)
    ensures PreparedFrom(g, e.best, e.severities, ScoredEntry(e))
  {
    ScoreOfEntry(e);
    assert ScoredEntry(e).finding == Prepare(e);
  }

  /** The score of an entry: the representative's confidence and risk, and its number of distinct paths. */
  lemma ScoreOfEntry(e: Entry)
    requires Distinct(e.filePaths)
    ensures Score(e)[2] == ScoreValue(e.best.confidenceScore)
    ensures Score(e)[3] == -ScoreValue(e.best.falsePositiveRisk)
    ensures Score(e)[4] == |Elems(e.filePaths)|
  {
    SortedLength(e.filePaths);
  }

  lemma SortedLength(s: seq<string>)
    requires Distinct(s)
    ensures |SortStrings(s)| == |Elems(s)|
  {
    SortedPaths(s);
    DistinctCard(s);
  }

  /**
   * What `select_top_findings` scores before sorting: one element per key,
   * keys in order of first appearance, each prepared for its group.
   */
  lemma ScoredSpec(fs: seq<Finding>)
    ensures Covered(Aggregate(fs))
    ensures var t := Aggregate(fs);
      forall i :: 0 <= i < |t.order| ==> PreparedFor(Group(Contributions(fs), t.order[i]), ScoredAll(t)[i])
  {
    AggregateSpec(fs);
    var t := Aggregate(fs);
    var cs := Contributions(fs);
    forall i | 0 <= i < |t.order|
      ensures PreparedFor(Group(cs, t.order[i]), ScoredAll(t)[i])
    {
      PrepareSpec(Group(cs, t.order[i]), t.entries[t.order[i]]);
    }
  }

  /** Every ranked element is one of the elements scored before sorting. */
  lemma RankedMember(t: Table, k: nat)
    requires Covered(t) && k < |Ranked(t)|
    ensures exists i :: 0 <= i < |t.order| && Ranked(t)[k] == ScoredAll(t)[i]
  {
    var all := ScoredAll(t);
    SortDescPermutation(all, ScoreOf);
    assert Ranked(t)[k] in multiset(Ranked(t));
    assert Ranked(t)[k] in all;
  }

  /**
   * Every finding `select_top_findings` returns is the prepared, scored
   * representative of one of the groups.
   */
  lemma SelectedSpec(fs: seq<Finding>, limit: int)
    ensures Covered(Aggregate(fs))
    ensures var t := Aggregate(fs);
      var r := Ranked(t);
      && |r| == |t.order|
      && forall k :: 0 <= k < SliceEnd(|r|, limit) ==>
           exists i :: 0 <= i < |t.order| && PreparedFor(Group(Contributions(fs), t.order[i]), r[k])
  {
    ScoredSpec(fs);
    var t := Aggregate(fs);
    var cs := Contributions(fs);
    var r := Ranked(t);
    SortDescPermutation(ScoredAll(t), ScoreOf);
    forall k | 0 <= k < SliceEnd(|r|, limit)
      ensures exists i :: 0 <= i < |t.order| && PreparedFor(Group(cs, t.order[i]), r[k])
    {
      RankedMember(t, k);
      var i :| 0 <= i < |t.order| && r[k] == ScoredAll(t)[i];
      assert PreparedFor(Group(cs, t.order[i]), r[k]);
    }
  }
}

=== FILE: executor.dfy ===
/**
 * The pure part of `agent/agent_code/dynamic_executor.py`: sanitising the
 * vulnerability id, filling the hypothesis defaults, the non-exploitable
 * guard, and reading the outcome of the test run. Rendering the template,
 * writing the test file and running `forge` are recorded as actions; the
 * process result is an input.
 */
module DynamicExecutor {
  import opened Wrappers
  import opened Json
  import opened Text
  import opened Seqs
  import Parsers

  // ---------------------------------------------------------------- ids

  /** The characters the class `[A-Za-z0-9_]` admits. */
  predicate IsIdChar(c: char) {
    'A' <= c <= 'Z' || 'a' <= c <= 'z' || '0' <= c <= '9' || c == '_'
  }

  predicate IsId(s: string) {
    forall i :: 0 <= i < |s| ==> IsIdChar(s[i])
  }

  const DefaultId := "EXP001"

  /** `re.sub(r"[^A-Za-z0-9_]+", "", s)`: drop every run of other characters. */
  function KeepIdChars(s: string): (r: string)
    ensures IsId(r)
  {
    if s == [] then []
    else (if IsIdChar(s[0]) then [s[0]] else []) + KeepIdChars(s[1..])
  }

  /** `_sanitize_vulnerability_id` on a string (`None` is passed as ""). */
  function SanitizeVulnerabilityId(raw: string): (id: string)
    ensures id != [] && IsId(id)
    ensures (forall i :: 0 <= i < |raw| ==> !IsIdChar(raw[i])) ==> id == DefaultId
    ensures (exists i :: 0 <= i < |raw| && IsIdChar(raw[i])) ==> id == KeepIdChars(raw)
  {
    var safe := KeepIdChars(raw);
    KeepIdCharsEmpty(raw);
    if safe == [] then DefaultId else safe
  }

  lemma {:induction false} KeepIdCharsEmpty(s: string)
    ensures KeepIdChars(s) == [] <==> forall i :: 0 <= i < |s| ==> !IsIdChar(s[i])
  {
    if s != [] {
      KeepIdCharsEmpty(s[1..]);
      assert forall i :: 1 <= i < |s| ==> s[i] == s[1..][i - 1];
    }
  }

  /**
   * The kept characters are the input's allowed characters, in their original
   * order, each as often as in the input.
   */
  lemma KeepIdCharsFilters(s: string)
    ensures IsSubsequence(KeepIdChars(s), s)
    ensures forall c :: IsIdChar(c) ==> multiset(KeepIdChars(s))[c] == multiset(s)[c]
  {
    KeepIdCharsInOrder(s);
    forall c | IsIdChar(c) ensures multiset(KeepIdChars(s))[c] == multiset(s)[c] {
      KeepIdCharsCount(s, c);
    }
  }

  lemma {:induction false} KeepIdCharsInOrder(s: string)
    ensures IsSubsequence(KeepIdChars(s), s)
  {
    if s != [] {
      KeepIdCharsInOrder(s[1..]);
      if IsIdChar(s[0]) {
        assert KeepIdChars(s) == [s[0]] + KeepIdChars(s[1..]);
      } else {
        assert KeepIdChars(s) == KeepIdChars(s[1..]);
        SubsequenceSkip(KeepIdChars(s), s);
      }
    }
  }

  lemma {:induction false} KeepIdCharsCount(s: string, c: char)
    requires IsIdChar(c)
    ensures multiset(KeepIdChars(s))[c] == multiset(s)[c]
  {
    if s != [] {
      KeepIdCharsCount(s[1..], c);
      assert s == [s[0]] + s[1..];
      assert multiset(s) == multiset{s[0]} + multiset(s[1..]);
      if IsIdChar(s[0]) {
        assert KeepIdChars(s) == [s[0]] + KeepIdChars(s[1..]);
        assert multiset(KeepIdChars(s)) == multiset{s[0]} + multiset(KeepIdChars(s[1..]));
      } else {
        assert KeepIdChars(s) == KeepIdChars(s[1..]);
      }
    }
  }

  lemma {:induction false} KeepIdCharsOfId(s: string)
    requires IsId(s)
    ensures KeepIdChars(s) == s
  {
    if s != [] {
      KeepIdCharsOfId(s[1..]);
    }
  }

  /** Sanitising an already sanitised id returns it unchanged. */
  lemma SanitizeIdempotent(raw: string)
    ensures SanitizeVulnerabilityId(SanitizeVulnerabilityId(raw)) == SanitizeVulnerabilityId(raw)
  {
    var id := SanitizeVulnerabilityId(raw);
    KeepIdCharsOfId(id);
    assert IsIdChar(id[0]);
  }

  /**
   * `_sanitize_vulnerability_id(v)` for whatever the hypothesis carries:
   * a falsy value is replaced by "", a string is filtered, and any other
   * truthy value makes `re.sub` raise `TypeError`.
   */
  function SanitizeValue(v: Json): (r: Result<string>)
    ensures !Truthy(v) ==> r == Ok(DefaultId)
    ensures v.JStr? ==> r == Ok(SanitizeVulnerabilityId(v.s))
    ensures r.Err? <==> Truthy(v) && !v.JStr?
  {
    if !Truthy(v) then Ok(SanitizeVulnerabilityId(""))
    else if v.JStr? then Ok(SanitizeVulnerabilityId(v.s))
    else Err("TypeError: expected string or bytes-like object")
  }

  // ---------------------------------------------------------------- hypotheses

  /** The keys `_normalize_hypothesis` emits (the keys of `REQUIRED_FIELDS`). */
  const SchemaKeys: set<string> :=
    {"is_exploitable", "exploit_name", "vulnerability_id", "step_1_code", "step_2_code", "invariant_check"}

  /** The dictionary `_normalize_hypothesis` returns, one field per key. */
  datatype Hypothesis = Hypothesis(
    isExploitable: bool,
    exploitName: Json,
    vulnerabilityId: string,
    step1Code: Json,
    step2Code: Json,
    invariantCheck: Json)

  /** The normalised hypothesis as the dictionary the Python code builds. */
  function AsDict(n: Hypothesis): (d: map<string, Json>)
    ensures d.Keys == SchemaKeys
  {
    map[
      "is_exploitable" := JBool(n.isExploitable),
      "exploit_name" := n.exploitName,
      "vulnerability_id" := JStr(n.vulnerabilityId),
      "step_1_code" := n.step1Code,
      "step_2_code" := n.step2Code,
      "invariant_check" := n.invariantCheck
    ]
  }

  /**
   * The id `_normalize_hypothesis` stores: the sanitised `vulnerability_id`,
   * "EXP001" when it is absent or falsy, an error when it is neither.
   */
  function NormalizedId(h: map<string, Json>): (r: Result<string>)
    ensures r.Err? <==> "vulnerability_id" in h && Truthy(h["vulnerability_id"]) && !h["vulnerability_id"].JStr?
    ensures r.Ok? ==> r.value != [] && IsId(r.value)
    ensures r.Ok? && "vulnerability_id" !in h ==> r.value == DefaultId
    ensures r.Ok? && "vulnerability_id" in h ==>
              r.value == if h["vulnerability_id"].JStr? then SanitizeVulnerabilityId(h["vulnerability_id"].s) else DefaultId
  {
    var raw := Get(h, "vulnerability_id", JStr(DefaultId));
    assert "vulnerability_id" !in h ==> SanitizeVulnerabilityId(DefaultId) == DefaultId;
    SanitizeValue(raw)
  }

  /**
   * `_normalize_hypothesis`: the truthiness of `is_exploitable`, the sanitised
   * id, and every other key copied or, when absent, given its default.
   */
  function NormalizeHypothesis(h: map<string, Json>): (r: Result<Hypothesis>)
    ensures r.Err? <==> "vulnerability_id" in h && Truthy(h["vulnerability_id"]) && !h["vulnerability_id"].JStr?
    ensures r.Ok? ==> r.value.isExploitable == ("is_exploitable" in h && Truthy(h["is_exploitable"]))
    ensures r.Ok? ==> NormalizedId(h) == Ok(r.value.vulnerabilityId)
    ensures r.Ok? ==> r.value.exploitName == if "exploit_name" in h then h["exploit_name"] else JStr("Unnamed Exploit")
    ensures r.Ok? ==> r.value.step1Code == if "step_1_code" in h then h["step_1_code"] else JStr("")
    ensures r.Ok? ==> r.value.step2Code == if "step_2_code" in h then h["step_2_code"] else JStr("")
    ensures r.Ok? ==> r.value.invariantCheck == if "invariant_check" in h then h["invariant_check"] else JStr("fail()")
  {
    match NormalizedId(h)
    case Err(e) => Err(e)
    case Ok(id) =>
      Ok(Hypothesis(
        Truthy(Get(h, "is_exploitable", JNull)),
        Get(h, "exploit_name", JStr("Unnamed Exploit")),
        id,
        Get(h, "step_1_code", JStr("")),
        Get(h, "step_2_code", JStr("")),
        Get(h, "invariant_check", JStr("fail()"))))
  }

  /** A normalised hypothesis, as a dictionary, normalises to itself. */
  lemma NormalizeOfDict(n: Hypothesis)
    requires n.vulnerabilityId != [] && IsId(n.vulnerabilityId)
    ensures NormalizeHypothesis(AsDict(n)) == Ok(n)
  {
    var id := n.vulnerabilityId;
    KeepIdCharsOfId(id);
    assert IsIdChar(id[0]);
    assert SanitizeVulnerabilityId(id) == id;
    var d := AsDict(n);
    assert Get(d, "vulnerability_id", JStr(DefaultId)) == JStr(id);
    assert Get(d, "is_exploitable", JNull) == JBool(n.isExploitable);
  }

  /** Normalising the dictionary of a normalised hypothesis gives it back. */
  lemma NormalizeIdempotent(h: map<string, Json>)
    requires NormalizeHypothesis(h).Ok?
    ensures NormalizeHypothesis(AsDict(NormalizeHypothesis(h).value)) == NormalizeHypothesis(h)
  {
    NormalizeOfDict(NormalizeHypothesis(h).value);
  }

  /**
   * A hypothesis that passed `parse_llm_json` normalises without error into
   * one that passes it again.
   */
  lemma NormalizeKeepsSchema(h: map<string, Json>)
    requires Parsers.SchemaValid(Parsers.Decoded(JObj(h)))
    ensures NormalizeHypothesis(h).Ok?
    ensures Parsers.SchemaValid(Parsers.Decoded(JObj(AsDict(NormalizeHypothesis(h).value))))
  {
    var rf := Parsers.RequiredFields;
    assert rf[5].0 == "vulnerability_id" && h[rf[5].0].JStr?;
    var n := NormalizeHypothesis(h).value;
    assert rf[1].0 == "exploit_name" && n.exploitName == h[rf[1].0];
    assert rf[2].0 == "step_1_code" && n.step1Code == h[rf[2].0];
    assert rf[3].0 == "step_2_code" && n.step2Code == h[rf[3].0];
    assert rf[4].0 == "invariant_check" && n.invariantCheck == h[rf[4].0];
    DictMeetsSchema(n);
  }

  /** The dictionary of a hypothesis whose four text fields are strings meets the schema. */
  lemma DictMeetsSchema(n: Hypothesis)
    requires n.exploitName.JStr? && n.step1Code.JStr? && n.step2Code.JStr? && n.invariantCheck.JStr?
    ensures Parsers.SchemaValid(Parsers.Decoded(JObj(AsDict(n))))
  {
    var rf := Parsers.RequiredFields;
    var d := AsDict(n);
    forall i | 0 <= i < |rf|
      ensures rf[i].0 in d && Parsers.HasType(d[rf[i].0], rf[i].1)
    {
    }
  }

  // ---------------------------------------------------------------- running

  /** What `subprocess.run` hands back. */
  datatype ProcessResult = ProcessResult(returncode: int, stdout: string, stderr: string)

  /** The effects `generate_and_run_test` performs besides computing its report. */
  datatype Action =
    | WriteTestFile(path: string)
    | RunForgeTest(matchTest: string)

  /** The dictionary `generate_and_run_test` returns, plus the actions it took. */
  datatype RunReport = RunReport(success: bool, traceSummary: string, testName: Option<string>, actions: seq<Action>)

  const TraceLimit := 500

  /** `s[-500:]` */
  function LastChars(s: string, n: nat): (r: string)
    ensures |r| == if |s| <= n then |s| else n
    ensures r == s[|s| - |r|..]
  {
    if |s| <= n then s else s[|s| - n..]
  }

  /**
   * The test passed: exit status 0 and "1 test passed" or "test passed" in
   * the lower-cased output. The first alternative is subsumed by the second.
   */
  predicate RunSucceeded(proc: ProcessResult)
    ensures RunSucceeded(proc) <==> proc.returncode == 0 && Contains(Lower(proc.stdout), "test passed")
  {
    var out := Lower(proc.stdout);
    OneTestPassedIsTestPassed(out);
    proc.returncode == 0 && (Contains(out, "1 test passed") || Contains(out, "test passed"))
  }

  lemma OneTestPassedIsTestPassed(out: string)
    ensures Contains(out, "1 test passed") ==> Contains(out, "test passed")
  {
    if Contains(out, "1 test passed") {
      assert "1 test passed" == "1 " + "test passed";
      ContainsTail(out, "1 ", "test passed");
    }
  }

  /** `hypothesis or {}`: a falsy value is `{}`, a truthy non-dict has no `.get`. */
  function HypothesisDict(hypothesis: Json): (r: Result<map<string, Json>>)
    ensures r.Err? <==> Truthy(hypothesis) && !hypothesis.JObj?
    ensures !Truthy(hypothesis) ==> r == Ok(map[])
    ensures hypothesis.JObj? ==> r == Ok(hypothesis.fields)
  {
    if !Truthy(hypothesis) then Ok(map[])
    else if hypothesis.JObj? then Ok(hypothesis.fields)
    else Err(NoGetError)
  }

  /**
   * `generate_and_run_test`, with `proc` standing for what `forge` returns.
   * A non-exploitable hypothesis stops before any rendering, file or process.
   */
  function GenerateAndRunTest(hypothesis: Json, proc: ProcessResult): (r: Result<RunReport>)
    ensures r.Ok? ==> |r.value.traceSummary| <= TraceLimit
  {
    var h :- HypothesisDict(hypothesis);
    var normalized :- NormalizeHypothesis(h);
    Ok(RunNormalized(normalized, proc))
  }

  /** The report for a normalised hypothesis, from the guard on. */
  function RunNormalized(normalized: Hypothesis, proc: ProcessResult): (r: RunReport)
    ensures |r.traceSummary| <= TraceLimit
    ensures r.testName.Some? <==> normalized.isExploitable
    ensures r.actions != [] <==> normalized.isExploitable
    ensures r.success ==> normalized.isExploitable && RunSucceeded(proc)
    ensures !normalized.isExploitable ==> r.traceSummary == "Hypothesis marked non-exploitable."
  {
    if !normalized.isExploitable then
      RunReport(false, "Hypothesis marked non-exploitable.", None, [])
    else
      var id := normalized.vulnerabilityId;
      var testName := "testExploit_" + id;
      RunReport(
        RunSucceeded(proc),
        LastChars(proc.stdout + "\n" + proc.stderr, TraceLimit),
        Some(testName),
        [WriteTestFile("test/Exploit_" + id + ".t.sol"), RunForgeTest(testName)])
  }

  /** A hypothesis that is not exploitable fails without touching the outside world. */
  lemma NonExploitableShortCircuits(h: map<string, Json>, proc: ProcessResult)
    requires NormalizeHypothesis(h).Ok?
    requires !("is_exploitable" in h && Truthy(h["is_exploitable"]))
    ensures GenerateAndRunTest(JObj(h), proc)
            == Ok(RunReport(false, "Hypothesis marked non-exploitable.", None, []))
  {
  }

  /**
   * For an exploitable hypothesis: success is exit status 0 with "test passed"
   * in the lower-cased output, the trace is the tail of at most 500 characters
   * of stdout and stderr, and the test is named after the sanitised id.
   */
  lemma ExploitableRun(h: map<string, Json>, proc: ProcessResult)
    requires NormalizeHypothesis(h).Ok?
    requires "is_exploitable" in h && Truthy(h["is_exploitable"])
    ensures var r := GenerateAndRunTest(JObj(h), proc);
      var id := NormalizeHypothesis(h).value.vulnerabilityId;
      var all := proc.stdout + "\n" + proc.stderr;
      && r.Ok?
      && (r.value.success <==> proc.returncode == 0 && Contains(Lower(proc.stdout), "test passed"))
      && r.value.testName == Some("testExploit_" + id)
      && |r.value.traceSummary| == (if |all| <= TraceLimit then |all| else TraceLimit)
      && r.value.traceSummary == all[|all| - |r.value.traceSummary|..]
      && r.value.actions == [WriteTestFile("test/Exploit_" + id + ".t.sol"), RunForgeTest("testExploit_" + id)]
  {
    GenerateNormalizes(h, proc);
    ExploitableOutcome(NormalizeHypothesis(h).value, proc);
  }

  /** A hypothesis dictionary that normalises goes on to the guard. */
  lemma GenerateNormalizes(h: map<string, Json>, proc: ProcessResult)
    requires NormalizeHypothesis(h).Ok?
    ensures GenerateAndRunTest(JObj(h), proc) == Ok(RunNormalized(NormalizeHypothesis(h).value, proc))
  {
    assert HypothesisDict(JObj(h)) == Ok(h);
  }

  lemma ExploitableOutcome(n: Hypothesis, proc: ProcessResult)
    requires n.isExploitable
    ensures var r := RunNormalized(n, proc);
      var all := proc.stdout + "\n" + proc.stderr;
      && (r.success <==> proc.returncode == 0 && Contains(Lower(proc.stdout), "test passed"))
      && r.testName == Some("testExploit_" + n.vulnerabilityId)
      && |r.traceSummary| == (if |all| <= TraceLimit then |all| else TraceLimit)
      && r.traceSummary == all[|all| - |r.traceSummary|..]
      && r.actions == [WriteTestFile("test/Exploit_" + n.vulnerabilityId + ".t.sol"), RunForgeTest("testExploit_" + n.vulnerabilityId)]
  {
  }
}

=== FILE: json.dfy ===
/**
 * Decoded JSON values as the Python code sees them after `json.loads`:
 * `None`, `bool`, `int`, `str`, `list` and `dict`.
 */
module Json {

  datatype Json =
    | JNull
    | JBool(b: bool)
    | JInt(i: int)
    | JStr(s: string)
    | JArr(items: seq<Json>)
    | JObj(fields: map<string, Json>)

  /** Python's `bool(v)`: `None`, `False`, `0`, `""`, `[]` and `{}` are falsy. */
  predicate Truthy(v: Json) {
    match v
    case JNull => false
    case JBool(b) => b
    case JInt(i) => i != 0
    case JStr(s) => s != ""
    case JArr(xs) => xs != []
    case JObj(m) => m != map[]
  }

  /** Python's `d.get(key, default)`. */
  function Get(d: map<string, Json>, key: string, default: Json): Json {
    if key in d then d[key] else default
  }

  /** The exception `.get` raises on a value that is not a dict. */
  const NoGetError := "AttributeError: object has no attribute 'get'"
}

=== FILE: parsers.dfy ===
/**
 * Validation of the exploit hypothesis an LLM returns as JSON
 * (`agent/agent_code/parsers.py`). Decoding itself (`json.loads`) is not
 * modelled: the validator starts from its outcome, a JSON value or a
 * decoding error.
 */
module Parsers {
  import opened Wrappers
  import opened Json
  import opened Text
  import opened Seqs

  /** The two Python types `REQUIRED_FIELDS` asks for. */
  datatype FieldType = BoolField | StrField

  /** `REQUIRED_FIELDS`, in declaration order. */
  const RequiredFields: seq<(string, FieldType)> := [
    ("is_exploitable", BoolField),
    ("exploit_name", StrField),
    ("step_1_code", StrField),
    ("step_2_code", StrField),
    ("invariant_check", StrField),
    ("vulnerability_id", StrField)
  ]

  /** The outcome of `json.loads(raw)`. */
  datatype Decoded = Decoded(value: Json) | DecodeError(message: string)

  /** The triple `(parsed_dict, is_valid, error_message)`. */
  datatype ParseResult = ParseResult(parsed: map<string, Json>, valid: bool, error: string)

  /** `isinstance(v, bool)` / `isinstance(v, str)`. */
  predicate HasType(v: Json, t: FieldType) {
    match t
    case BoolField => v.JBool?
    case StrField => v.JStr?
  }

  function Names(fields: seq<(string, FieldType)>): (names: seq<string>)
    ensures |names| == |fields|
    ensures forall i :: 0 <= i < |fields| ==> names[i] == fields[i].0
  {
    if fields == [] then [] else [fields[0].0] + Names(fields[1..])
  }

  /**
   * `[k for k in fields if k not in data]`: exactly the absent names, in
   * declaration order.
   */
  function MissingFields(fields: seq<(string, FieldType)>, data: map<string, Json>): (missing: seq<string>)
    ensures forall k :: k in missing <==> k in Names(fields) && k !in data
    ensures IsSubsequence(missing, Names(fields))
  {
    if fields == [] then []
    else
      var rest := MissingFields(fields[1..], data);
      assert Names(fields) == [fields[0].0] + Names(fields[1..]);
      if fields[0].0 !in data then [fields[0].0] + rest else rest
  }

  /**
   * The index of the first field, in declaration order, whose value in `data`
   * (`None` when absent) does not have the declared type.
   */
  function FirstTypeError(fields: seq<(string, FieldType)>, data: map<string, Json>): (r: Option<nat>)
    ensures r.Some? ==> r.value < |fields|
    ensures r.Some? ==> !HasType(Get(data, fields[r.value].0, JNull), fields[r.value].1)
    ensures r.Some? ==> forall j :: 0 <= j < r.value ==> HasType(Get(data, fields[j].0, JNull), fields[j].1)
    ensures r.None? ==> forall j :: 0 <= j < |fields| ==> HasType(Get(data, fields[j].0, JNull), fields[j].1)
  {
    if fields == [] then None
    else if !HasType(Get(data, fields[0].0, JNull), fields[0].1) then Some(0)
    else
      match FirstTypeError(fields[1..], data)
      case None => None
      case Some(i) => Some(i + 1)
  }

  function ExpectedSuffix(t: FieldType): string {
    match t
    case BoolField => "expected_bool"
    case StrField => "expected_str"
  }

  /**
   * The schema: a JSON object carrying every required field with its declared
   * type (extra keys allowed).
   */
  predicate SchemaValid(d: Decoded) {
    && d.Decoded?
    && d.value.JObj?
    && forall i :: 0 <= i < |RequiredFields| ==>
         RequiredFields[i].0 in d.value.fields
         && HasType(d.value.fields[RequiredFields[i].0], RequiredFields[i].1)
  }

  /** `parse_llm_json` after decoding. */
  function ParseLlmJson(d: Decoded): (r: ParseResult)
    ensures r.valid <==> SchemaValid(d)
    ensures r.valid ==> r.parsed == d.value.fields && r.error == ""
    ensures !r.valid ==> r.parsed == map[] && r.error != ""
  {
    match d
    case DecodeError(msg) => ParseResult(map[], false, "json_decode_error: " + msg)
    case Decoded(v) =>
      if !v.JObj? then ParseResult(map[], false, "json_not_object")
      else
        var missing := MissingFields(RequiredFields, v.fields);
        if missing != [] then
          MissingBreaksSchema(v.fields);
          ParseResult(map[], false, "missing_fields: " + Join(missing, ","))
        else
          match FirstTypeError(RequiredFields, v.fields)
          case Some(i) =>
            TypeErrorBreaksSchema(v.fields, i);
            ParseResult(map[], false, "field_type:" + RequiredFields[i].0 + "=" + ExpectedSuffix(RequiredFields[i].1))
          case None =>
            WellTypedMeetsSchema(v.fields);
            ParseResult(v.fields, true, "")
  }

  lemma TypeErrorBreaksSchema(m: map<string, Json>, i: nat)
    requires i < |RequiredFields|
    requires !HasType(Get(m, RequiredFields[i].0, JNull), RequiredFields[i].1)
    ensures !SchemaValid(Decoded(JObj(m)))
  {
  }

  lemma WellTypedMeetsSchema(m: map<string, Json>)
    requires MissingFields(RequiredFields, m) == []
    requires FirstTypeError(RequiredFields, m).None?
    ensures SchemaValid(Decoded(JObj(m)))
  {
    forall i | 0 <= i < |RequiredFields|
      ensures RequiredFields[i].0 in m && HasType(m[RequiredFields[i].0], RequiredFields[i].1)
    {
      assert Names(RequiredFields)[i] == RequiredFields[i].0;
      assert HasType(Get(m, RequiredFields[i].0, JNull), RequiredFields[i].1);
    }
  }

  lemma MissingBreaksSchema(m: map<string, Json>)
    requires MissingFields(RequiredFields, m) != []
    ensures !SchemaValid(Decoded(JObj(m)))
  {
    var missing := MissingFields(RequiredFields, m);
    assert missing[0] in missing;
    var names := Names(RequiredFields);
    var i :| 0 <= i < |names| && names[i] == missing[0];
    assert RequiredFields[i].0 !in m;
  }

  /**
   * A missing field is reported before any type is checked: an object lacking
   * a required key fails with the list of all absent keys in declaration
   * order, whatever the types of the keys it does carry.
   */
  lemma MissingReportedFirst(m: map<string, Json>, k: string)
    requires k in Names(RequiredFields) && k !in m
    ensures ParseLlmJson(Decoded(JObj(m))).error
            == "missing_fields: " + Join(MissingFields(RequiredFields, m), ",")
    ensures k in MissingFields(RequiredFields, m)
  {
  }

  /**
   * With every key present, the error names the first ill-typed key in
   * declaration order and the type it should have had.
   */
  lemma TypeErrorNamesFirstOffender(m: map<string, Json>, i: nat)
    requires forall j :: 0 <= j < |RequiredFields| ==> RequiredFields[j].0 in m
    requires i < |RequiredFields| && !HasType(m[RequiredFields[i].0], RequiredFields[i].1)
    requires forall j :: 0 <= j < i ==> HasType(m[RequiredFields[j].0], RequiredFields[j].1)
    ensures ParseLlmJson(Decoded(JObj(m))).error
            == "field_type:" + RequiredFields[i].0 + "=" + ExpectedSuffix(RequiredFields[i].1)
  {
    NothingMissing(RequiredFields, m);
    FirstTypeErrorAt(RequiredFields, m, i);
  }

  lemma {:induction false} NothingMissing(fields: seq<(string, FieldType)>, m: map<string, Json>)
    requires forall j :: 0 <= j < |fields| ==> fields[j].0 in m
    ensures MissingFields(fields, m) == []
  {
    if fields != [] {
      NothingMissing(fields[1..], m);
    }
  }

  lemma {:induction false} FirstTypeErrorAt(fields: seq<(string, FieldType)>, m: map<string, Json>, i: nat)
    requires i < |fields| && !HasType(Get(m, fields[i].0, JNull), fields[i].1)
    requires forall j :: 0 <= j < i ==> HasType(Get(m, fields[j].0, JNull), fields[j].1)
    ensures FirstTypeError(fields, m) == Some(i)
  {
    if i > 0 {
      FirstTypeErrorAt(fields[1..], m, i - 1);
    }
  }

  /** `clean_llm_json`: the validated object, or `{"is_exploitable": False}`. */
  function CleanLlmJson(d: Decoded): (r: map<string, Json>)
    ensures SchemaValid(d) ==> r == d.value.fields
    ensures !SchemaValid(d) ==> r == map["is_exploitable" := JBool(false)]
  {
    var p := ParseLlmJson(d);
    if !p.valid then map["is_exploitable" := JBool(false)] else p.parsed
  }
}

=== FILE: seqs.dfy ===
/** Generic facts about sequences used by several modules. */
module Seqs {

  /** `a` is `b` with some elements left out, the rest kept in order. */
  predicate IsSubsequence<T(==)>(a: seq<T>, b: seq<T>) {
    if a == [] then true
    else if b == [] then false
    else if a[0] == b[0] then IsSubsequence(a[1..], b[1..])
    else IsSubsequence(a, b[1..])
  }

  lemma {:induction false} SubsequenceSkip<T>(a: seq<T>, b: seq<T>)
    requires b != [] && IsSubsequence(a, b[1..])
    ensures IsSubsequence(a, b)
  {
    if a != [] && a[0] == b[0] {
      SubsequenceDropHead(a, b[1..]);
    }
  }

  lemma {:induction false} SubsequenceDropHead<T>(a: seq<T>, b: seq<T>)
    requires a != [] && IsSubsequence(a, b)
    ensures IsSubsequence(a[1..], b)
  {
    if b != [] {
      if a[0] == b[0] {
        SubsequenceSkip(a[1..], b);
      } else {
        SubsequenceDropHead(a, b[1..]);
        SubsequenceSkip(a[1..], b);
      }
    }
  }

  /** No element occurs twice. */
  predicate Distinct<T(==)>(s: seq<T>) {
    forall i, j :: 0 <= i < j < |s| ==> s[i] != s[j]
  }

  /** The elements of a sequence as a set (Python's `set(s)`). */
  ghost function Elems<T>(s: seq<T>): set<T> {
    set x | x in s
  }

  /** A duplicate-free list has as many elements as its set (`len(set(s)) == len(s)`). */
  lemma {:induction false} DistinctCard<T>(s: seq<T>)
    requires Distinct(s)
    ensures |Elems(s)| == |s|
  {
    if s != [] {
      var init := s[..|s| - 1];
      DistinctCard(init);
      assert Elems(s) == Elems(init) + {s[|s| - 1]};
      assert s[|s| - 1] !in Elems(init);
    }
  }

  /** `s` with `x` added unless already there (`set.add` on a duplicate-free list). */
  function AddNew<T(==)>(s: seq<T>, x: T): (r: seq<T>)
    ensures Distinct(s) ==> Distinct(r)
    ensures Elems(r) == Elems(s) + {x}
  {
    if x in s then s else s + [x]
  }

  /** `set.update(xs)` on a duplicate-free list: each new element is appended. */
  function AddAll<T(==)>(s: seq<T>, xs: seq<T>): (r: seq<T>)
    ensures Distinct(s) ==> Distinct(r)
    ensures Elems(r) == Elems(s) + Elems(xs)
    decreases |xs|
  {
    if xs == [] then s
    else
      assert Elems(xs) == {xs[0]} + Elems(xs[1..]);
      AddAll(AddNew(s, xs[0]), xs[1..])
  }

  /** Splitting off the element at `j` from the suffix that starts there. */
  lemma DropCons<T>(s: seq<T>, j: nat, a: seq<T>, x: T)
    requires j < |s| && s[j] == x
    ensures a + s[j..] == (a + [x]) + s[j + 1..]
  {
    assert s[j..] == [x] + s[j + 1..];
  }
}

=== FILE: stable_sort.dfy ===
/**
 * Python's `list.sort(key=..., reverse=True)` for keys that are tuples of
 * integers: tuples compare lexicographically, and the sort is stable, so
 * elements whose keys are equal keep their original relative order.
 */
module StableSort {

  /** `a >= b` for Python tuples of integers (a proper prefix is smaller). */
  predicate LexGe(a: seq<int>, b: seq<int>) {
    if b == [] then true
    else if a == [] then false
    else a[0] > b[0] || (a[0] == b[0] && LexGe(a[1..], b[1..]))
  }

  lemma {:induction false} LexGeTotal(a: seq<int>, b: seq<int>)
    ensures LexGe(a, b) || LexGe(b, a)
  {
    if a != [] && b != [] && a[0] == b[0] {
      LexGeTotal(a[1..], b[1..]);
    }
  }

  lemma {:induction false} LexGeTransitive(a: seq<int>, b: seq<int>, c: seq<int>)
    requires LexGe(a, b) && LexGe(b, c)
    ensures LexGe(a, c)
  {
    if c != [] && a[0] == b[0] == c[0] {
      LexGeTransitive(a[1..], b[1..], c[1..]);
    }
  }

  /** Keys never increase from left to right. */
  predicate SortedDesc<T>(s: seq<T>, key: T -> seq<int>) {
    forall i, j :: 0 <= i < j < |s| ==> LexGe(key(s[i]), key(s[j]))
  }

  /** The elements of `s` whose key is `k`, in their order in `s`. */
  function WithKey<T>(s: seq<T>, key: T -> seq<int>, k: seq<int>): seq<T> {
    if s == [] then []
    else (if key(s[0]) == k then [s[0]] else []) + WithKey(s[1..], key, k)
  }

  /** Puts `x` before the first element whose key is not greater than its own. */
  function Insert<T>(x: T, s: seq<T>, key: T -> seq<int>): seq<T> {
    if s == [] || LexGe(key(x), key(s[0])) then [x] + s
    else [s[0]] + Insert(x, s[1..], key)
  }

  /** Stable sort into non-increasing key order. */
  function SortDesc<T>(s: seq<T>, key: T -> seq<int>): seq<T> {
    if s == [] then [] else Insert(s[0], SortDesc(s[1..], key), key)
  }

  lemma {:induction false} InsertBounded<T>(x: T, s: seq<T>, key: T -> seq<int>, b: seq<int>)
    requires LexGe(b, key(x))
    requires forall i :: 0 <= i < |s| ==> LexGe(b, key(s[i]))
    ensures forall i :: 0 <= i < |Insert(x, s, key)| ==> LexGe(b, key(Insert(x, s, key)[i]))
  {
    if s != [] && !LexGe(key(x), key(s[0])) {
      InsertBounded(x, s[1..], key, b);
    }
  }

  lemma {:induction false} InsertSorted<T>(x: T, s: seq<T>, key: T -> seq<int>)
    requires SortedDesc(s, key)
    ensures SortedDesc(Insert(x, s, key), key)
  {
    var r := Insert(x, s, key);
    if s == [] {
    } else if LexGe(key(x), key(s[0])) {
      forall i, j | 0 <= i < j < |r| ensures LexGe(key(r[i]), key(r[j])) {
        if i == 0 && j > 1 {
          LexGeTransitive(key(x), key(s[0]), key(s[j - 1]));
        }
      }
    } else {
      var t := Insert(x, s[1..], key);
      InsertSorted(x, s[1..], key);
      LexGeTotal(key(x), key(s[0]));
      InsertBounded(x, s[1..], key, key(s[0]));
      assert r == [s[0]] + t;
      forall i, j | 0 <= i < j < |r| ensures LexGe(key(r[i]), key(r[j])) {
        if i == 0 {
          assert r[j] == t[j - 1];
        }
      }
    }
  }

  lemma {:induction false} InsertWithKey<T>(x: T, s: seq<T>, key: T -> seq<int>, k: seq<int>)
    ensures WithKey(Insert(x, s, key), key, k) ==
            (if key(x) == k then [x] else []) + WithKey(s, key, k)
  {
    if s != [] && !LexGe(key(x), key(s[0])) {
      var t := Insert(x, s[1..], key);
      var r := Insert(x, s, key);
      assert r == [s[0]] + t;
      assert r[1..] == t;
      var head := if key(s[0]) == k then [s[0]] else [];
      assert WithKey(r, key, k) == head + WithKey(t, key, k);
      InsertWithKey(x, s[1..], key, k);
      LexGeTotal(key(x), key(x));
      assert key(x) != key(s[0]);
    } else {
      assert ([x] + s)[1..] == s;
    }
  }

  lemma {:induction false} InsertMultiset<T>(x: T, s: seq<T>, key: T -> seq<int>)
    ensures multiset(Insert(x, s, key)) == multiset(s) + multiset{x}
  {
    if s != [] && !LexGe(key(x), key(s[0])) {
      InsertMultiset(x, s[1..], key);
      assert s == [s[0]] + s[1..];
    }
  }

  /** The result of the sort is in non-increasing key order. */
  lemma {:induction false} SortDescSorted<T>(s: seq<T>, key: T -> seq<int>)
    ensures SortedDesc(SortDesc(s, key), key)
  {
    if s != [] {
      SortDescSorted(s[1..], key);
      InsertSorted(s[0], SortDesc(s[1..], key), key);
    }
  }

  /** The sort is stable: for every key, the elements with that key keep their order. */
  lemma {:induction false} SortDescStable<T>(s: seq<T>, key: T -> seq<int>, k: seq<int>)
    ensures WithKey(SortDesc(s, key), key, k) == WithKey(s, key, k)
  {
    if s != [] {
      SortDescStable(s[1..], key, k);
      InsertWithKey(s[0], SortDesc(s[1..], key), key, k);
    }
  }

  /** The sort neither loses nor duplicates an element. */
  lemma {:induction false} SortDescPermutation<T>(s: seq<T>, key: T -> seq<int>)
    ensures multiset(SortDesc(s, key)) == multiset(s)
    ensures |SortDesc(s, key)| == |s|
  {
    if s != [] {
      SortDescPermutation(s[1..], key);
      InsertMultiset(s[0], SortDesc(s[1..], key), key);
      assert s == [s[0]] + s[1..];
    }
  }
}

=== FILE: swarm.dfy ===
/**
 * The swarm's verdict collector (`agent/services/swarm.py`): every agent
 * judges the file, and each verdict that reports a vulnerability becomes a
 * finding record. What an agent's model call returns is an input: each
 * agent carries the function that stands for its backend.
 */
module Swarm {
  import opened Wrappers
  import opened Json

  /** What the persona's backend call produced: the decoded reply, any JSON value, or a failure. */
  datatype Reply = Replied(reply: Json) | CallFailed

  /** A persona: its name and the backend it asks about (source, file name). */
  datatype Agent = Agent(name: string, backend: (string, string) -> Reply)

  /** The verdict `BasePersona.hunt` returns when the call or the decoding failed. */
  const FallbackVerdict := JObj(map["found_vulnerability" := JBool(false)])

  /**
   * `BasePersona.hunt`: whatever `json.loads` decoded, or the fallback verdict
   * when the call or the decoding failed.
   */
  function Hunt(agent: Agent, source: string, filename: string): (verdict: Json)
    ensures agent.backend(source, filename).Replied? ==> verdict == agent.backend(source, filename).reply
    ensures agent.backend(source, filename).CallFailed? ==> verdict == FallbackVerdict
    ensures agent.backend(source, filename).CallFailed? ==> verdict.JObj? && !Reports(verdict)
    ensures !verdict.JObj? ==> agent.backend(source, filename) == Replied(verdict)
  {
    match agent.backend(source, filename)
    case Replied(v) => v
    case CallFailed => FallbackVerdict
  }

  /** The record `analyze_file` appends for one reporting agent. */
  datatype SwarmFinding = SwarmFinding(
    title: Json,
    description: Json,
    severity: Json,
    filePath: string,
    lineNumber: Json,
    confidence: string,
    detectedBy: string,
    attackLogic: Json,
    verificationProof: Json)

  const SwarmConfidence := "Verified by Swarm Reasoning"

  /** The verdict is a dict and `analysis.get("found_vulnerability")` is truthy. */
  predicate Reports(verdict: Json) {
    verdict.JObj? && Truthy(Get(verdict.fields, "found_vulnerability", JNull))
  }

  /**
   * The record built from one verdict: absent keys take their defaults, a key
   * present with `null` keeps it; `attack_logic` and `verification_proof`
   * have no default.
   */
  function ToFinding(verdict: map<string, Json>, filename: string, agentName: string): (f: SwarmFinding)
    ensures f.filePath == filename && f.detectedBy == agentName && f.confidence == SwarmConfidence
    ensures f.title == if "title" in verdict then verdict["title"] else JStr("Unknown Vuln")
    ensures f.severity == if "severity" in verdict then verdict["severity"] else JStr("High")
    ensures f.lineNumber == if "line_number" in verdict then verdict["line_number"] else JInt(0)
    ensures f.description == if "kill_chain" in verdict then verdict["kill_chain"] else JStr("No details")
    ensures f.attackLogic == if "kill_chain" in verdict then verdict["kill_chain"] else JNull
    ensures f.verificationProof == if "verification_proof" in verdict then verdict["verification_proof"] else JNull
  {
    SwarmFinding(
      Get(verdict, "title", JStr("Unknown Vuln")),
      Get(verdict, "kill_chain", JStr("No details")),
      Get(verdict, "severity", JStr("High")),
      filename,
      Get(verdict, "line_number", JInt(0)),
      SwarmConfidence,
      agentName,
      Get(verdict, "kill_chain", JNull),
      Get(verdict, "verification_proof", JNull))
  }

  /**
   * What the loop over the agents yields, in agent order (its specification):
   * the records, or the `AttributeError` of the first verdict that is not a
   * dict, which `analyze_file` does not catch.
   */
  function Collect(agents: seq<Agent>, source: string, filename: string): (r: Result<seq<SwarmFinding>>)
    ensures r.Err? <==> exists i :: 0 <= i < |agents| && !Hunt(agents[i], source, filename).JObj?
    ensures r.Err? ==> r == Err(NoGetError)
    ensures r.Ok? ==> |r.value| <= |agents|
    ensures r.Ok? ==> forall f :: f in r.value ==>
              f.filePath == filename && f.confidence == SwarmConfidence
              && exists a :: a in agents && f.detectedBy == a.name
  {
    if agents == [] then Ok([])
    else
      var init := agents[..|agents| - 1];
      var last := agents[|agents| - 1];
      var verdict := Hunt(last, source, filename);
      assert forall i :: 0 <= i < |init| ==> init[i] == agents[i];
      assert forall a :: a in init ==> a in agents;
      match Collect(init, source, filename)
      case Err(e) => Err(e)
      case Ok(rest) =>
        if !verdict.JObj? then Err(NoGetError)
        else if Reports(verdict) then Ok(rest + [ToFinding(verdict.fields, filename, last.name)])
        else Ok(rest)
  }

  /** The positions of the agents whose verdict reports a vulnerability, increasing. */
  function ReportingAgents(agents: seq<Agent>, source: string, filename: string): (idx: seq<nat>)
    ensures forall k :: 0 <= k < |idx| ==> idx[k] < |agents|
    ensures forall k, l :: 0 <= k < l < |idx| ==> idx[k] < idx[l]
    ensures forall i :: 0 <= i < |agents| ==> (i in idx <==> Reports(Hunt(agents[i], source, filename)))
  {
    if agents == [] then []
    else
      var rest := ReportingAgents(agents[..|agents| - 1], source, filename);
      assert forall i :: 0 <= i < |agents| - 1 ==> agents[..|agents| - 1][i] == agents[i];
      if Reports(Hunt(agents[|agents| - 1], source, filename)) then rest + [|agents| - 1] else rest
  }

  /**
   * When no verdict raises, one record per reporting agent, in agent order:
   * the k-th record is built from the verdict of the k-th reporting agent.
   */
  lemma {:induction false} CollectSelectsReporters(agents: seq<Agent>, source: string, filename: string)
    ensures var idx := ReportingAgents(agents, source, filename);
      var r := Collect(agents, source, filename);
      r.Ok? ==>
        && |r.value| == |idx|
        && forall k :: 0 <= k < |idx| ==>
             && Hunt(agents[idx[k]], source, filename).JObj?
             && r.value[k] == ToFinding(Hunt(agents[idx[k]], source, filename).fields, filename, agents[idx[k]].name)
  {
    if agents != [] {
      var init := agents[..|agents| - 1];
      CollectSelectsReporters(init, source, filename);
      LastAgentStep(agents, source, filename);
    }
  }

  /** How adding the last agent extends both the reporter positions and the records. */
  lemma LastAgentStep(agents: seq<Agent>, source: string, filename: string)
    requires agents != []
    ensures var init := agents[..|agents| - 1];
      var last := agents[|agents| - 1];
      var verdict := Hunt(last, source, filename);
      && (forall i :: 0 <= i < |init| ==> init[i] == agents[i])
      && ReportingAgents(agents, source, filename)
         == ReportingAgents(init, source, filename) + (if Reports(verdict) then [|agents| - 1] else [])
      && (Collect(agents, source, filename).Ok? ==>
            && Collect(init, source, filename).Ok?
            && verdict.JObj?
            && Collect(agents, source, filename).value
               == Collect(init, source, filename).value
                  + (if Reports(verdict) then [ToFinding(verdict.fields, filename, last.name)] else []))
  {
  }

  /**
   * A backend that fails for every agent yields no findings and no error:
   * the fallback verdict is a dict that never reports a vulnerability.
   */
  lemma {:induction false} AllFailedYieldsNothing(agents: seq<Agent>, source: string, filename: string)
    requires forall i :: 0 <= i < |agents| ==> agents[i].backend(source, filename).CallFailed?
    ensures Collect(agents, source, filename) == Ok([])
  {
    if agents != [] {
      AllFailedYieldsNothing(agents[..|agents| - 1], source, filename);
    }
  }

  /** `Swarm`: the council of agents, fixed at construction. */
  class Swarm {
    const agents: seq<Agent>

    /** The council: the Thief and the Logician, each with its backend. */
    constructor (thief: (string, string) -> Reply, logician: (string, string) -> Reply)
      ensures agents == [Agent("Thief", thief), Agent("Logician", logician)]
    {
      agents := [Agent("Thief", thief), Agent("Logician", logician)];
    }

    /**
     * `analyze_file`: ask every agent in turn and keep the reported findings;
     * a verdict that is not a dict raises out of the loop.
     */
    method AnalyzeFile(source: string, filename: string) returns (result: Result<seq<SwarmFinding>>)
      ensures result == Collect(agents, source, filename)
      ensures result.Err? <==> exists i :: 0 <= i < |agents| && !Hunt(agents[i], source, filename).JObj?
      ensures result.Ok? ==> |result.value| <= |agents|
      ensures result.Ok? ==> forall f :: f in result.value ==>
                f.filePath == filename && f.confidence == SwarmConfidence
                && exists a :: a in agents && f.detectedBy == a.name
    {
      var findings := [];
      var i := 0;
      while i < |agents|
        invariant 0 <= i <= |agents|
        invariant Collect(agents[..i], source, filename) == Ok(findings)
      {
        var agent := agents[i];
        var analysis := Hunt(agent, source, filename);
        assert agents[..i + 1][..i] == agents[..i];
        if !analysis.JObj? {
          assert agents[i] == agent;
          result := Err(NoGetError);
          return;
        }
        if Reports(analysis) {
          findings := findings + [ToFinding(analysis.fields, filename, agent.name)];
        }
        i := i + 1;
      }
      assert agents[..i] == agents;
      result := Ok(findings);
    }
  }
}

=== FILE: text.dfy ===
/**
 * The string operations of Python's `str` that the result-processing code
 * relies on: `strip`, `lower`, `in` (substring), `join`, decimal printing of
 * an integer and `int(...)` on a string.
 */
module Text {
  import opened Wrappers

  // ---------------------------------------------------------------- strip

  /** Characters `str.isspace()` accepts among the first 256 code points. */
  predicate IsSpace(c: char) {
    var k := c as int;
    k == 32 || 9 <= k <= 13 || 28 <= k <= 31 || k == 0x85 || k == 0xA0
  }

  predicate AllSpace(s: string) {
    forall i :: 0 <= i < |s| ==> IsSpace(s[i])
  }

  function StripLeft(s: string): string {
    if s != [] && IsSpace(s[0]) then StripLeft(s[1..]) else s
  }

  function StripRight(s: string): string {
    if s != [] && IsSpace(s[|s| - 1]) then StripRight(s[..|s| - 1]) else s
  }

  /** `s.strip()` */
  function Strip(s: string): string {
    StripRight(StripLeft(s))
  }

  lemma {:induction false} StripLeftSpacePrefix(pre: string, s: string)
    requires AllSpace(pre)
    ensures StripLeft(pre + s) == StripLeft(s)
  {
    if pre != [] {
      assert (pre + s)[1..] == pre[1..] + s;
      StripLeftSpacePrefix(pre[1..], s);
    } else {
      assert pre + s == s;
    }
  }

  lemma {:induction false} StripRightSpaceSuffix(s: string, post: string)
    requires AllSpace(post)
    ensures StripRight(s + post) == StripRight(s)
  {
    if post != [] {
      var n := |post| - 1;
      assert (s + post)[..|s + post| - 1] == s + post[..n];
      StripRightSpaceSuffix(s, post[..n]);
    } else {
      assert s + post == s;
    }
  }

  lemma {:induction false} StripLeftAppend(s: string, post: string)
    ensures AllSpace(s) ==> StripLeft(s + post) == StripLeft(post) && StripLeft(s) == []
    ensures !AllSpace(s) ==> StripLeft(s + post) == StripLeft(s) + post
  {
    if s == [] {
      assert s + post == post;
    } else {
      assert (s + post)[1..] == s[1..] + post;
      StripLeftAppend(s[1..], post);
      if !IsSpace(s[0]) {
        assert !AllSpace(s);
      } else {
        assert AllSpace(s) <==> AllSpace(s[1..]) by {
          if AllSpace(s[1..]) {
            forall i | 0 <= i < |s| ensures IsSpace(s[i]) {
              if i > 0 { assert s[i] == s[1..][i - 1]; }
            }
          }
        }
      }
    }
  }

  lemma {:induction false} StripRightOfAllSpace(s: string)
    requires AllSpace(s)
    ensures StripRight(s) == []
  {
    if s != [] {
      StripRightOfAllSpace(s[..|s| - 1]);
    }
  }

  /** Leading and trailing whitespace does not change what `strip` yields. */
  lemma StripPadding(pre: string, s: string, post: string)
    requires AllSpace(pre) && AllSpace(post)
    ensures Strip(pre + s + post) == Strip(s)
  {
    assert pre + s + post == pre + (s + post);
    StripLeftSpacePrefix(pre, s + post);
    StripLeftAppend(s, post);
    if AllSpace(s) {
      StripLeftAppend(post, []);
      assert post + [] == post;
      StripRightOfAllSpace(post);
      assert StripRight([]) == [];
    } else {
      StripRightSpaceSuffix(StripLeft(s), post);
    }
  }

  // ---------------------------------------------------------------- lower

  /** `c.lower()` on ASCII letters; every other character is left as is. */
  function LowerChar(c: char): char {
    if 'A' <= c <= 'Z' then (c as int + 32) as char else c
  }

  /** `s.lower()` */
  function Lower(s: string): (r: string)
    ensures |r| == |s|
    ensures forall i :: 0 <= i < |s| ==> r[i] == LowerChar(s[i])
  {
    seq(|s|, i requires 0 <= i < |s| => LowerChar(s[i]))
  }

  lemma {:induction false} LowerStripLeft(s: string)
    ensures Lower(StripLeft(s)) == StripLeft(Lower(s))
  {
    if s != [] {
      assert Lower(s)[1..] == Lower(s[1..]);
      LowerStripLeft(s[1..]);
    }
  }

  lemma {:induction false} LowerStripRight(s: string)
    ensures Lower(StripRight(s)) == StripRight(Lower(s))
  {
    if s != [] {
      var n := |s| - 1;
      assert Lower(s)[..n] == Lower(s[..n]);
      LowerStripRight(s[..n]);
    }
  }

  /** Lower-casing and stripping commute, so their order in a key is immaterial. */
  lemma LowerStrip(s: string)
    ensures Lower(Strip(s)) == Strip(Lower(s))
  {
    LowerStripLeft(s);
    LowerStripRight(StripLeft(s));
  }

  // ---------------------------------------------------------------- substring

  predicate StartsWith(s: string, p: string) {
    |p| <= |s| && s[..|p|] == p
  }

  /** `t in s` */
  predicate Contains(s: string, t: string) {
    StartsWith(s, t) || (s != [] && Contains(s[1..], t))
  }

  lemma {:induction false} ContainsOfSuffix(s: string, k: nat, t: string)
    requires k <= |s| && Contains(s[k..], t)
    ensures Contains(s, t)
  {
    if k > 0 {
      assert s[1..][k - 1..] == s[k..];
      ContainsOfSuffix(s[1..], k - 1, t);
    }
  }

  /** Text found in `b` is found in `a + b`. */
  lemma ContainsInSuffix(a: string, b: string, t: string)
    requires Contains(b, t)
    ensures Contains(a + b, t)
  {
    assert (a + b)[|a|..] == b;
    ContainsOfSuffix(a + b, |a|, t);
  }

  /** Whatever contains `x + t` contains `t`. */
  lemma {:induction false} ContainsTail(s: string, x: string, t: string)
    requires Contains(s, x + t)
    ensures Contains(s, t)
  {
    if StartsWith(s, x + t) {
      assert s[|x|..][..|t|] == (x + t)[|x|..];
      assert StartsWith(s[|x|..], t);
      ContainsOfSuffix(s, |x|, t);
    } else {
      ContainsTail(s[1..], x, t);
    }
  }

  // ---------------------------------------------------------------- join

  /** `sep.join(parts)` */
  function Join(parts: seq<string>, sep: string): string {
    if |parts| == 0 then ""
    else if |parts| == 1 then parts[0]
    else parts[0] + sep + Join(parts[1..], sep)
  }

  // ---------------------------------------------------------------- integers

  predicate IsDigit(c: char) {
    '0' <= c <= '9'
  }

  function DigitChar(d: nat): (c: char)
    requires d < 10
    ensures IsDigit(c)
  {
    ('0' as int + d) as char
  }

  /** `str(n)` for a non-negative integer. */
  function NatToDecimal(n: nat): (s: string)
    ensures s != [] && forall i :: 0 <= i < |s| ==> IsDigit(s[i])
  {
    if n < 10 then [DigitChar(n)] else NatToDecimal(n / 10) + [DigitChar(n % 10)]
  }

  /**
   * The digit part `int(...)` accepts in base 10: digits, with single
   * underscores allowed between two digits.
   */
  predicate WellFormedDigits(d: string) {
    && d != []
    && IsDigit(d[0])
    && IsDigit(d[|d| - 1])
    && (forall i :: 0 <= i < |d| ==> IsDigit(d[i]) || d[i] == '_')
    && (forall i :: 0 <= i < |d| - 1 ==> d[i] == '_' ==> d[i + 1] != '_')
  }

  /** The value of the digits of `d`, underscores skipped. */
  function DigitsValue(d: string): nat {
    if d == [] then 0
    else
      var last := d[|d| - 1];
      if IsDigit(last) then DigitsValue(d[..|d| - 1]) * 10 + (last as int - '0' as int)
      else DigitsValue(d[..|d| - 1])
  }

  function ParseDigits(d: string): Option<nat> {
    if WellFormedDigits(d) then Some(DigitsValue(d)) else None
  }

  /**
   * The whitespace `int(...)` skips around its digits, among the first 256
   * code points: tab through carriage return, space, U+0085 and U+00A0. The
   * separators U+001C to U+001F, which `strip` removes, are not skipped.
   */
  predicate IsIntSpace(c: char) {
    var k := c as int;
    k == 32 || 9 <= k <= 13 || k == 0x85 || k == 0xA0
  }

  function TrimIntLeft(s: string): string {
    if s != [] && IsIntSpace(s[0]) then TrimIntLeft(s[1..]) else s
  }

  function TrimIntRight(s: string): string {
    if s != [] && IsIntSpace(s[|s| - 1]) then TrimIntRight(s[..|s| - 1]) else s
  }

  /** What `int(...)` reads of a string: the string without the whitespace it skips at either end. */
  function TrimInt(s: string): string {
    TrimIntRight(TrimIntLeft(s))
  }

  /** `int(s)` on a string: surrounding whitespace, an optional sign, digits. */
  function ParseInt(s: string): Option<int> {
    var t := TrimInt(s);
    if t != [] && (t[0] == '-' || t[0] == '+') then
      match ParseDigits(t[1..])
      case Some(v) => var n: int := v; Some(if t[0] == '-' then -n else n)
      case None => None
    else
      match ParseDigits(t)
      case Some(v) => Some(v)
      case None => None
  }

  lemma {:induction false} DecimalValue(n: nat)
    ensures DigitsValue(NatToDecimal(n)) == n
  {
    var s := NatToDecimal(n);
    if n >= 10 {
      DecimalValue(n / 10);
      assert s[..|s| - 1] == NatToDecimal(n / 10);
    }
  }

  lemma DigitsHaveNoSpace(s: string)
    requires forall i :: 0 <= i < |s| ==> IsDigit(s[i])
    ensures TrimInt(s) == s
  {
    if s != [] {
      assert !IsIntSpace(s[0]) && !IsIntSpace(s[|s| - 1]);
    }
  }

  /** Printing a count and reading it back with `int(...)` gives the count. */
  lemma ParseIntOfDecimal(n: nat)
    ensures ParseInt(NatToDecimal(n)) == Some(n)
  {
    var s := NatToDecimal(n);
    DigitsHaveNoSpace(s);
    DecimalValue(n);
    assert WellFormedDigits(s);
  }

  /** `str(n)` for any integer: a minus sign before the digits of a negative one. */
  function IntToDecimal(n: int): string {
    if n < 0 then "-" + NatToDecimal(-n) else NatToDecimal(n)
  }

  /** `int(str(n)) == n` */
  lemma ParseIntOfIntDecimal(n: int)
    ensures ParseInt(IntToDecimal(n)) == Some(n)
  {
    if n < 0 {
      var d := NatToDecimal(-n);
      var s := "-" + d;
      DecimalValue(-n);
      assert s[0] == '-' && !IsIntSpace(s[0]) && !IsIntSpace(s[|s| - 1]);
      assert TrimInt(s) == s;
      assert s[1..] == d;
      assert WellFormedDigits(d);
    } else {
      ParseIntOfDecimal(n);
    }
  }

  /**
   * `int(...)` skips less than `strip` removes: a leading information
   * separator makes `int` reject text that `strip` would reduce to digits.
   */
  lemma IntDoesNotSkipSeparators()
    ensures Strip("\U{1C}5") == "5"
    ensures ParseInt("\U{1C}5") == None
  {
    assert IsSpace('\U{1C}') && !IsIntSpace('\U{1C}');
    assert "\U{1C}5"[1..] == "5";
    assert !WellFormedDigits("\U{1C}5");
  }

  // ---------------------------------------------------------------- ordering

  /** `a < b` for Python strings: by code points, a proper prefix is smaller. */
  predicate StrLt(a: string, b: string) {
    if b == [] then false
    else if a == [] then true
    else a[0] < b[0] || (a[0] == b[0] && StrLt(a[1..], b[1..]))
  }

  lemma {:induction false} StrLtTransitive(a: string, b: string, c: string)
    requires StrLt(a, b) && StrLt(b, c)
    ensures StrLt(a, c)
  {
    if a != [] && a[0] == b[0] == c[0] {
      StrLtTransitive(a[1..], b[1..], c[1..]);
    }
  }

  lemma {:induction false} StrLtTrichotomy(a: string, b: string)
    ensures a == b || StrLt(a, b) || StrLt(b, a)
  {
    if a != [] && b != [] && a[0] == b[0] {
      StrLtTrichotomy(a[1..], b[1..]);
      assert a == [a[0]] + a[1..] && b == [b[0]] + b[1..];
    }
  }

  predicate StrictlySorted(s: seq<string>) {
    forall i, j :: 0 <= i < j < |s| ==> StrLt(s[i], s[j])
  }

  function InsertString(x: string, s: seq<string>): seq<string> {
    if s == [] || StrLt(x, s[0]) then [x] + s else [s[0]] + InsertString(x, s[1..])
  }

  /** `sorted(strings)` */
  function SortStrings(s: seq<string>): seq<string> {
    if s == [] then [] else InsertString(s[0], SortStrings(s[1..]))
  }

  lemma {:induction false} InsertStringMultiset(x: string, s: seq<string>)
    ensures multiset(InsertString(x, s)) == multiset(s) + multiset{x}
  {
    if s != [] && !StrLt(x, s[0]) {
      InsertStringMultiset(x, s[1..]);
      assert s == [s[0]] + s[1..];
    }
  }

  lemma {:induction false} InsertStringBounded(x: string, s: seq<string>, b: string)
    requires StrLt(b, x) && forall i :: 0 <= i < |s| ==> StrLt(b, s[i])
    ensures forall i :: 0 <= i < |InsertString(x, s)| ==> StrLt(b, InsertString(x, s)[i])
  {
    if s != [] && !StrLt(x, s[0]) {
      InsertStringBounded(x, s[1..], b);
    }
  }

  lemma {:induction false} InsertStringSorted(x: string, s: seq<string>)
    requires StrictlySorted(s) && x !in s
    ensures StrictlySorted(InsertString(x, s))
  {
    var r := InsertString(x, s);
    if s == [] {
    } else if StrLt(x, s[0]) {
      forall i, j | 0 <= i < j < |r| ensures StrLt(r[i], r[j]) {
        if i == 0 && j > 1 {
          StrLtTransitive(x, s[0], s[j - 1]);
        }
      }
    } else {
      var t := InsertString(x, s[1..]);
      InsertStringSorted(x, s[1..]);
      StrLtTrichotomy(x, s[0]);
      InsertStringBounded(x, s[1..], s[0]);
      assert r == [s[0]] + t;
      forall i, j | 0 <= i < j < |r| ensures StrLt(r[i], r[j]) {
        if i == 0 {
          assert r[j] == t[j - 1];
        }
      }
    }
  }

  /**
   * Sorting a list without duplicates yields its elements in strictly
   * increasing order, nothing lost and nothing added.
   */
  lemma {:induction false} SortStringsSpec(s: seq<string>)
    requires forall i, j :: 0 <= i < j < |s| ==> s[i] != s[j]
    ensures StrictlySorted(SortStrings(s))
    ensures multiset(SortStrings(s)) == multiset(s)
  {
    if s != [] {
      SortStringsSpec(s[1..]);
      InsertStringMultiset(s[0], SortStrings(s[1..]));
      assert s == [s[0]] + s[1..];
      assert s[0] !in multiset(s[1..]);
      assert s[0] !in SortStrings(s[1..]);
      InsertStringSorted(s[0], SortStrings(s[1..]));
    }
  }
}

=== FILE: wrappers.dfy ===
/** Failure-carrying wrappers shared by the other modules. */
module Wrappers {

  /** A value that may be absent (Python's `None`). */
  datatype Option<T> = None | Some(value: T)

  /** The outcome of a step that may raise: `Err` carries the exception text. */
  datatype Result<T> = Ok(value: T) | Err(error: string) {
    predicate IsFailure() { Err? }

    function PropagateFailure<U>(): Result<U>
      requires Err?
    {
      Err(error)
    }

    function Extract(): T
      requires Ok?
    {
      value
    }
  }
}
